=== FILE: README.md ===
# Pinterest board downloader: background worker model

This project models the background service worker of a browser extension that downloads every
image of a Pinterest board (`background.js`). It covers:

- **Filename derivation** (`filenameFromPin`). Pick the pin's description or auto-generated alt
  text. Then strip hashtags, strip characters that are illegal in filenames, collapse whitespace,
  trim, fall back when nothing is left, and cut to 250 characters.
- **Image-variant selection** (`selectDownloadableImage`). Keep the variants that have a string
  URL and sort them by area, largest first, with a stable sort. Take the first one whose
  lower-cased URL ends in `.jpg`, `.jpeg` or `.png`.
- **Board URL parsing** (`parseBoardUrl`). The regular expression
  `^https://www.pinterest.com/<username>/<slug>/?$` is written out as a parser over the string.
- **The message listener** (`onMessage`) and the global `session` record it creates, cancels and
  reports.
- **The download pipeline**:
  - `fetchBoardInfo` resolves the board;
  - `fetchImageUrlsForBoard` runs the bookmark pagination and the pin loop of each page;
  - `downloadBoardImages` downloads one file at a time, checks the cancel flag, and ends in
    `"complete"`, `"canceled"` or `"error"`.

Modules:

- `Wrappers`: `Option` and `Result`.
- `Text`: the JavaScript string built-ins the worker uses.
- `Pins`: the feed record.
- `Filename`, `ImageSelect`, `BoardUrl`: the three pure helpers.
- `SessionState`: the session record as a value.
- `Feed`: the pagination as a specification.
- `Pipeline`: `downloadBoardImages` as a specification.
- `Background`: the worker itself. `Session` and `Worker` are classes whose methods update the
  record in place. The pipeline methods (`FetchImageUrlsForBoard`, `DownloadImages`,
  `DownloadBoardImages`, `Start` and the `START_BOARD_DOWNLOAD` case of `OnMessage`) are proved
  equal to the specification functions of `Feed` and `Pipeline`. `Handshake`, `CancelCurrent`,
  `Suspend` and `Teardown` state their effect on the record directly.

How the outside world enters the model:

- **Network.** The board lookup response, the feed responses (one `Page` per request, in order)
  and the downloads the browser rejects are parameters (`Env`, `pages`).
- **Timing.** The only thing that can change the session while the pipeline is suspended at an
  `await` is the `CANCEL_BOARD_DOWNLOAD` handler. `Env.cancelAt` names the suspension during
  which that message is delivered, and `Worker.ticks` counts suspensions. There is one
  suspension for the board lookup, one per feed page, and one per download together with the
  random pause after it.

Behaviour of `background.js` that the model keeps:

- The cancel handler sets `status` to `"canceled"` at once (`Background.Worker.CancelCurrent`).
- A run that is canceled and then ends `"complete"` is possible in three ways:
  - a cancel during the board lookup (`Pipeline.CancelDuringLookupCompletes`);
  - a cancel during pagination that leaves no records;
  - a cancel while the last file downloads (`Pipeline.CancelDuringLastDownloadCompletes`).
- The host is fixed to `https://www.pinterest.com/`, and the final `/` of a board URL is
  optional (`BoardUrl.ParseAcceptsBoardUrls`).
- Deriving a filename twice is not always idempotent:
  - a 250-character cut can end on a space, which the second pass trims
    (`Filename.CutCanLeaveTrailingSpace`);
  - a hashtag whose `#` is followed by a whitespace control character (tab, LF, VT, FF, CR)
    survives as `#word` (`Filename.HashControlSurvives`).

  `Filename.NameFromTextIdempotent` proves idempotence for text without control characters
  that does not sanitize to empty and whose 250-character cut does not end on a space.
- A hashtag is `#` followed by characters that are neither whitespace nor `#`.
- `START_BOARD_DOWNLOAD` replaces an existing session with a fresh one.
- The `is_video` check is made by the feed's pin loop, not by the image selector.

## Model

| member | source | states |
|---|---|---|
| Text.IntToString | background.js:217 | `${status}` is the canonical decimal rendering: a `-` exactly for a negative status, then digits without a leading zero whose value is the status's magnitude |
| Text.ToLowerEach | background.js:91 | lower-casing maps each character of the URL on its own, at the same position |
| Text.ToLower | background.js:91 | `url.toLowerCase()` on the ASCII letters; the result has the input's length, and `ToLowerEach` states it character by character |
| Text.EndsWith | background.js:93 | `url.endsWith(ext)`: the suffix fits and the last characters are the suffix; `FindExt` states the extension test with it |
| Filename.StripHashtags | background.js:66 | the result has no `#` followed by a hashtag character, is no longer than the text, and text without hashtags is unchanged |
| Filename.StripHashtagsKeepsNoControl | background.js:66 | removing hashtags introduces no control character |
| Filename.StripHashtagsKeepsPlain | background.js:66 | text without `#` is kept by the hashtag stage |
| Filename.StripHashtagsKeepsLoneHash | background.js:66 | a `#` not followed by a hashtag character is kept |
| Filename.StripHashtagsDropsTag | background.js:66 | a `#` with its whole run of hashtag characters is removed |
| Filename.TagEndOfRun | background.js:66 | a hashtag match extends to the end of its run of hashtag characters |
| Filename.StripIllegal | background.js:68 | the result has none of `<>:"/\|?*` and no character below U+0020; clean text is unchanged |
| Filename.StripIllegalKeepsNoHashtag | background.js:66-68 | removing illegal characters after the hashtags creates no new hashtag, given no control characters |
| Filename.StripIllegalAppend | background.js:68 | the illegal-character stage works on each part of a text separately |
| Filename.StripIllegalKeepsLegal | background.js:68 | every legal character keeps all its occurrences |
| Filename.CollapseWhitespace | background.js:70 | the result is empty exactly when the text is, and its first character is whitespace exactly when the text's is |
| Filename.CollapseLeavesSingleSpaces | background.js:70 | after collapsing, every whitespace character is a plain space and no two are adjacent |
| Filename.CollapseKeepsLegal | background.js:68-70 | collapsing whitespace keeps the text free of illegal characters |
| Filename.CollapseKeepsNoHashtag | background.js:66-70 | collapsing whitespace creates no hashtag |
| Filename.CollapseFixpoint | background.js:70 | text with only single plain spaces is unchanged by collapsing |
| Filename.CollapseKeepsWordChar | background.js:70 | a non-whitespace character is kept in front of the collapsed rest |
| Filename.CollapseRun | background.js:70 | a run of whitespace becomes one space |
| Filename.Trim | background.js:71 | the result is a slice of the text with only whitespace cut at either end, neither starts nor ends with whitespace, and is empty exactly when the text is blank |
| Filename.TrimIsSlice | background.js:71 | the trimmed text is the slice between the leading and the trailing whitespace |
| Filename.TrimStartIsSuffix | background.js:71 | trimming the start drops only leading whitespace |
| Filename.TrimEndIsPrefix | background.js:71 | trimming the end keeps a prefix and every character it drops is whitespace |
| Filename.TrimStart | background.js:71 | the result is no longer than the text and does not start with whitespace |
| Filename.TrimEnd | background.js:71 | the result is no longer than the text and does not end with whitespace |
| Filename.TrimStartRun | background.js:71 | leading whitespace in front of a non-blank start is removed and nothing else |
| Filename.TrimParts | background.js:71 | trimming both ends gives the slice between the leading and the trailing whitespace |
| Filename.TrimKeepsLegal | background.js:71 | trimming keeps the text free of illegal characters |
| Filename.TrimKeepsSingleSpaces | background.js:71 | trimming keeps single plain spaces |
| Filename.TrimKeepsNoHashtag | background.js:71 | trimming creates no hashtag |
| Filename.TrimFixpoint | background.js:71 | text without outer whitespace is unchanged by trimming |
| Filename.SanitizeIsClean | background.js:64-71 | the four stages leave no illegal character, no outer whitespace and only single plain spaces |
| Filename.Sanitize | background.js:64-71 | the four stages in order; what they guarantee is stated by `SanitizeIsClean`, `SanitizeClean` and `CleanNameIsFixpoint` |
| Filename.CutIsSafe | background.js:77 | the first 250 characters of a clean name are still free of illegal characters and double spaces |
| Filename.NameFromText | background.js:64-77 | the fallback when nothing survives the four stages, otherwise the first at most 250 characters of what survives, a safe name |
| Filename.NameFromTextHashtagFree | background.js:64-77 | without control characters, a derived name that is not the fallback holds no hashtag |
| Filename.SourceText | background.js:51-62 | the description when it is non-blank, else the alt text when that is non-blank, else none; only object pins have a source text |
| Filename.FilenameFromPin | background.js:46-78 | a non-object pin, or one without non-blank description or alt text, gets the fallback; otherwise the description is preferred over the alt text and the name is derived from it |
| Filename.SanitizeClean | background.js:64-71 | on text the stages would not change, sanitizing is trimming |
| Filename.CleanNameIsFixpoint | background.js:64-77 | a clean name of at most 250 characters derives itself |
| Filename.NameFromTextIdempotent | background.js:64-77 | without control characters, when the text does not sanitize to empty and the cut does not end on a space, deriving twice equals deriving once |
| Filename.CutCanLeaveTrailingSpace | background.js:70-77 | a 249-letter lower-case word followed by ` b` derives to the word plus a space, which a second pass trims |
| Filename.CutKeepsTrailingSpace | background.js:70-77 | the 250-character cut of such a text ends on a space |
| Filename.ShortNameKept | background.js:64-77 | the word plus a space derives to the word |
| Filename.CutOfLongText | background.js:64-71 | such a text passes the four stages unchanged |
| Filename.SecondPassDropsSpace | background.js:71 | the word plus a space sanitizes to the word |
| Filename.HashControlSurvives | background.js:66-71 | `#`, one of tab, LF, VT, FF, CR, and a lower-case word shorter than 250 letters derive to `#word`, which is a hashtag for a second pass |
| Filename.HashControlSanitize | background.js:66-71 | the four stages turn `#`, a whitespace control character, word into `#word` |
| Filename.HashControlStage | background.js:66-68 | the hashtag stage keeps `#`, a whitespace control character, word (the character is `\s`), and the illegal-character stage then removes that character, giving `#word` |
| ImageSelect.FindExt | background.js:93-94 | an extension is found exactly when the URL ends with an allowed one, and the one found is allowed and a suffix |
| ImageSelect.WithUrl | background.js:86-87 | the kept variants all have a string URL |
| ImageSelect.Insert | background.js:88 | insertion adds exactly one element, keeping the multiset |
| ImageSelect.InsertKeepsDescending | background.js:88 | inserting into a list sorted by descending area keeps it sorted |
| ImageSelect.SortByArea | background.js:88 | the sorted list is in descending area and a permutation of the variants |
| ImageSelect.FirstAcceptable | background.js:90-97 | the loop finds an acceptable variant of the list, and finds none exactly when none is acceptable |
| ImageSelect.SelectionOf | background.js:91-95 | the record keeps the original URL, and its extension is allowed and ends the lower-cased URL |
| ImageSelect.SelectDownloadableImage | background.js:80-100 | no pin or no images gives `null`; a selection always has an allowed extension that ends the lower-cased URL |
| ImageSelect.BestNoneIff | background.js:90-99 | the reference choice is absent exactly when no variant is acceptable |
| ImageSelect.BestLocated | background.js:86-97 | the reference choice sits at an index of largest acceptable area with no earlier tie |
| ImageSelect.BestIsEarliestLargest | background.js:86-99 | the reference choice is absent exactly when nothing is acceptable, and otherwise is the earliest largest acceptable variant |
| ImageSelect.BestAtTail | background.js:88 | an earliest-largest index past the head remains one in the tail |
| ImageSelect.BestAtDetermines | background.js:86-97 | the earliest-largest acceptable variant is unique |
| ImageSelect.BestIgnoresMissingUrls | background.js:87 | dropping variants without a string URL does not change the choice |
| ImageSelect.FirstAcceptableAfterInsert | background.js:88-97 | after one insertion, the first acceptable variant is the new one exactly when it is acceptable and at least as large as the old first |
| ImageSelect.SortedSearchFindsBest | background.js:86-97 | searching the stably sorted list returns the earliest largest acceptable variant |
| ImageSelect.SelectPicksEarliestLargest | background.js:80-100 | the selector returns `null` exactly when no variant is acceptable, and otherwise the largest acceptable one, the earliest among equal areas |
| BoardUrl.IndexOf | background.js:147 | the first position of a character, or none when it does not occur |
| BoardUrl.DropTrailingSlash | background.js:147 | only one final `/` is removed |
| BoardUrl.ParsePath | background.js:147-155 | the path after the host either fails with the invalid-URL message or gives two non-empty slash-free segments and `/<username>/<slug>/` |
| BoardUrl.ParseBoardUrl | background.js:145-156 | failure carries `Invalid Pinterest board URL`; success gives two non-empty slash-free segments and the source URL `/<username>/<slug>/` |
| BoardUrl.ParseAfterPrefix | background.js:147 | a URL with the fixed host is parsed by its path |
| BoardUrl.PathOfParse | background.js:147 | an accepted path is `<username>/<slug>` with an optional final `/` |
| BoardUrl.IndexOfEndsSegment | background.js:147 | the first `/` after a slash-free segment ends it |
| BoardUrl.DropsOnlyTrailingSlash | background.js:147 | the optional `/` is removed and nothing else |
| BoardUrl.ParseOnlyAcceptsBoardUrls | background.js:145-150 | every accepted URL is the board URL of its own segments, with or without the final `/` |
| BoardUrl.ParseAcceptsBoardUrls | background.js:145-156 | every board URL is accepted and gives back its segments and source URL |
| Feed.PinImage | background.js:223-233 | a `null` pin throws the `is_video` TypeError; a record comes only from a non-video pin with a selected image, carrying its URL, its extension and the pin's filename with fallback `pin-<id>`; every non-video object pin with a selected image yields a record |
| Feed.PageImages | background.js:221-234 | the pin loop throws the `null` error or yields at most one record per pin; through `Step`, the records are exactly those the pins yield, in pin order |
| Feed.PageFailsOnNullPin | background.js:223-224 | the pin loop throws exactly when some pin is `null` |
| Feed.PinImageDownloadable | background.js:225-233 | each record has an allowed extension ending its lower-cased URL and a filename that is safe or the fallback |
| Feed.StepDownloadable | background.js:223-234 | one pin-loop step keeps all collected records downloadable |
| Feed.PageImagesDownloadable | background.js:223-234 | every record of a page is downloadable |
| Feed.JoinStep | background.js:238 | concatenation commutes with one pin-loop step |
| Feed.Join | background.js:238 | `images.concat(...)` of two pin-loop results, the first error winning; `JoinStep` and `Collected` state its effect |
| Feed.PageImagesSnoc | background.js:223-234 | the loop over one more pin is one more step |
| Feed.PageImagesPrefix | background.js:223-234 | the loop over the first `k + 1` pins is one step after the first `k` |
| Feed.PageImagesSplit | background.js:223-234 | the records of two runs of pins are the concatenation of their records |
| Feed.Step | background.js:223-233 | one pin-loop step: a `null` pin throws, a thrown error stays, and the record a pin yields is appended at the end, and only then is anything added |
| Feed.Collected | background.js:238 | the concatenated records succeed exactly when every page's records do |
| Feed.CollectedError | background.js:238 | a failed concatenation carries the error of one of the pages |
| Feed.Digest | background.js:216-239 | a failed status gives `Failed to fetch board feed: <status>`; otherwise the records are the pin loop's result, and another page is asked for exactly when the pin loop did not throw and the bookmark is truthy |
| Feed.IsOk | background.js:216 | `res.ok`: a status from 200 to 299; `Digest` and `FeedFailsOnBadPage` state the failure it gates |
| Feed.FeedError | background.js:217 | the message `Failed to fetch board feed: <status>`, the status in decimal as `IntToString` states; `FeedFailsOnBadPage` states when it is thrown |
| Feed.HasNext | background.js:236-237 | the bookmark is truthy: present and not empty; `Digest` states that exactly then another page is asked for |
| Feed.Digests | background.js:201-241 | the digests of the responses, request by request |
| Feed.TerminatesEnds | background.js:236-239 | when the last response has no bookmark, the chain of digests ends |
| Feed.FetchRun | background.js:201-242 | pagination makes at most one request per response and leaves the session canceled exactly when the cancel lands during one of its requests |
| Feed.FeedCanceledCollectsNothing | background.js:202 | an already canceled session makes no request, returns no records and leaves the session as it is |
| Feed.FeedStopsAtPage | background.js:236-241 | a page without bookmark is the last request: one suspension, and the run returns that page's records |
| Feed.FeedCollectsAcrossBookmark | background.js:236-238 | a bookmark concatenates the page's records with those of the following requests |
| Feed.FeedCollectsRequestedPages | background.js:201-242 | the records returned are those of the requested pages, concatenated in order, failing on the first bad page |
| Feed.StopIndex | background.js:236-239 | the first page from `i` on that has no bookmark, every page before it having one |
| Feed.FeedWithoutCancel | background.js:201-242 | when no cancel lands before the last request, pagination requests every page up to the first without bookmark, and no more |
| Feed.CancelEndsPagination | background.js:202 | a cancel that lands during a request makes it the last request |
| Feed.CollectedDownloadable | background.js:238 | concatenating pages of downloadable records gives downloadable records |
| Feed.FeedRecordsDownloadable | background.js:201-242 | every record pagination returns is downloadable |
| Feed.FeedFailsOnBadPage | background.js:201-242 | pagination throws exactly when a requested page has a failed status or a `null` pin, with that status message or the `null`-pin error |
| Pipeline.Requests | background.js:252-263 | one download request per record, in order |
| Pipeline.RequestLayout | background.js:259-263 | a download goes to `<board>/<filename>.jpg` with `uniquify`, and the folder separator is its only `/` when neither part holds one |
| Pipeline.RequestFor | background.js:259-263 | the `chrome.downloads.download` argument for one record; `RequestLayout` states its layout |
| Pipeline.Fail | background.js:281-282 | the `catch` block sets status `"error"` with the message and keeps the flag and the counters |
| Pipeline.DownloadRun | background.js:252-276 | the loop makes one suspension per download it starts and never runs past the last record |
| Pipeline.ErrorText | background.js:282 | the stored error is never empty and is the thrown message when that is non-empty |
| Pipeline.BoardName | background.js:197 | a non-empty name from the lookup is used as is; a missing or empty one becomes `Pinterest Board` |
| Pipeline.RequestsPrepend | background.js:252-263 | the requests of a record followed by others are its request followed by theirs |
| Pipeline.RequestsFrom | background.js:252-263 | the request of record `k` in front of the requests of the records from `k + 1` gives the requests from `k` |
| Pipeline.DownloadRunContinues | background.js:252-274 | a loop turn that sees no cancel and whose download resolves makes one request and continues with the next record, `completed` one higher |
| Pipeline.DownloadRunRequests | background.js:252-274 | the loop starts downloads of consecutive records, in order, one suspension each |
| Pipeline.DownloadRunSettles | background.js:252-276 | the loop ends in a terminal state that keeps its promises, and `completed` counts exactly the downloads that resolved (all started ones but a rejected last one) |
| Pipeline.DownloadRunCancelFlag | background.js:252-274 | at the end of the loop the flag is raised exactly when a cancel arrived, before or during it |
| Pipeline.SeenCancelStops | background.js:253-257 | a raised flag stops the loop before the next download with status `"canceled"` |
| Pipeline.CancelEndsDownloads | background.js:252-274 | a cancel landing during a download makes it the last one |
| Pipeline.DownloadRunEnds | background.js:252-284 | the loop ends `"error"` with the browser's message exactly when its last download was rejected and no earlier one was, `"complete"` when every record was downloaded, `"canceled"` when it stopped early |
| Pipeline.DownloadRunRejection | background.js:252-284 | only the last download started can have been rejected, and a rejection ends the loop in `"error"` with the browser's message |
| Pipeline.DownloadRunStops | background.js:252-277 | without a rejection, the loop ends `"complete"` exactly when it reached the last record and `"canceled"` otherwise |
| Pipeline.DownloadRunUndisturbedSession | background.js:252-276 | without cancel or rejection, the loop completes every remaining record |
| Pipeline.DownloadRunUndisturbedRequests | background.js:252-263 | without cancel or rejection, the loop requests every remaining record in order |
| Pipeline.DownloadRunUndisturbed | background.js:252-276 | without cancel or rejection, every remaining record is downloaded in order and the run completes |
| Pipeline.CancelDuringLastDownloadCompletes | background.js:252-276 | a cancel while the last file downloads is never seen by the loop, so the run ends `"complete"` with the flag raised |
| Pipeline.RunSettles | background.js:244-288 | every run ends in a terminal state that keeps its promises, and `completed` counts exactly the downloads that resolved |
| Pipeline.BoardRun | background.js:244-288 | the whole `downloadBoardImages` run; its outcomes are stated by `RunSettles`, `RunCancelFlag`, `RunRejectsInvalidUrl`, `RunBoardNotFound`, `RunFeedFails` and `RunUndisturbedCompletes` |
| Pipeline.RunCancelFlag | background.js:244-288 | the final flag is raised exactly when a cancel arrived during the run |
| Pipeline.RunCancelFlagDownloads | background.js:247-276 | once the feed has loaded, the final flag is raised exactly when a cancel arrived during the run |
| Pipeline.RunUndisturbedCompletes | background.js:244-276 | without a cancel or rejection, a found board whose feed loads ends `"complete"` with every record downloaded in feed order |
| Pipeline.CancelDuringLookupCompletes | background.js:246-276 | a cancel during the board lookup ends `"complete"` with nothing downloaded |
| Pipeline.RunRejectsInvalidUrl | background.js:145-156 | an invalid URL ends the run at once in `"error"` with the invalid-URL message and no request |
| Pipeline.RunBoardNotFound | background.js:196-197 | a lookup without a board id ends the run in `"error"` with `Board ID not found`, after one request and no download |
| Pipeline.Found | background.js:192-193 | the board id is truthy: present and not empty; `RunBoardNotFound` states what happens otherwise |
| Pipeline.RunFeedFails | background.js:244-284 | a feed that throws ends the run in `"error"` with its message and no download |
| SessionState.Cancel | background.js:40-41 | the flag is raised and the status is `"canceled"`; counters and error are kept |
| SessionState.Suspend | background.js:38-43 | during a suspension the record changes only by the cancel handler, when the cancel lands then |
| Background.Session.constructor | background.js:27-32 | the record `START_BOARD_DOWNLOAD` installs |
| Background.Worker.constructor | background.js:3 | no session at load |
| Background.Worker.OnMessage | background.js:12-44 | `POPUP_READY` changes nothing and replies `downloading` exactly when a session exists, with that session's record as `state` (else `null`); `START_BOARD_DOWNLOAD` installs a fresh record and leaves it, the downloads and the suspension count as the pipeline specification says; `CANCEL_BOARD_DOWNLOAD` cancels an existing session; other messages change nothing |
| Background.Worker.Handshake | background.js:14-21 | the reply says whether a session exists and carries its record |
| Background.Worker.Start | background.js:24-35 | a fresh record, then the pipeline run on it |
| Background.Worker.CancelCurrent | background.js:38-43 | an existing session gets the flag and status `"canceled"`, nothing else |
| Background.Worker.Teardown | background.js:290 | the session is dropped |
| Background.Worker.Suspend | background.js:178-273 | one suspension, during which the cancel message may land; it stands for every `await`: the board lookup (178, 191), each feed page (207, 220) and each download with its pause (259-273) |
| Background.Worker.FetchBoardInfo | background.js:162-198 | an invalid URL fails without suspending; otherwise one suspension, then the board name or `Board ID not found` |
| Background.Worker.FetchImageUrlsForBoard | background.js:201-242 | the records, session and suspension count are those of the pagination specification |
| Background.ReadPage | background.js:216-239 | one response's outcome equals its digest |
| Background.CollectPageImages | background.js:221-234 | the loop returns the pin loop's specification result |
| Background.PinRecord | background.js:224-233 | the loop body for a non-null pin matches the specification |
| Background.Worker.DownloadImages | background.js:252-276 | the downloads, suspension count and final record are those of the download-loop specification |
| Background.Worker.DownloadBoardImages | background.js:244-288 | the session, the downloads and the suspension count are those of the pipeline specification |

## Left out

- The popup (`popup.js`) and the progress, complete, canceled and error events (`safeSend`). The events only notify the UI and do not change the session. `console.error` is left out too.
- `buildBoardFeedUrl` and the request options and headers (`background.js:102-128`, `164-189`, `204-214`). They only shape the opaque HTTP requests, and the responses are parameters.
- The random pause (`sleepRandom`). Its delay and 100 ms polling are merged into the download's suspension. A cancel during the pause or during the download has the same effect on the next check.
- The two `await`s of a request (`fetch`, then `res.json()`). Each pair is one suspension.
- Network failures, and `res.json()` rejecting malformed JSON.
- The response status of the board lookup, which the code never checks. Only the parsed `id` and `name` enter the model.
- The 2-second teardown timer. `Worker.Teardown` is the timer's effect. Its scheduling is left out, as is its nulling of a newer session.
- A second `START_BOARD_DOWNLOAD` while a pipeline runs, which overlaps two pipelines on the shared record. `Worker.OnMessage` runs the whole pipeline inside the handler, with the cancel placed by `Env.cancelAt`.
- Non-string pin ids (modelled as the text `${pin.id}` renders to), missing or `NaN` widths and heights (areas are integers), non-array `data` and non-string board URLs.
- An endless bookmark chain. The feed is a finite list of responses whose last one has no bookmark (`Feed.Terminates`).
- Text.ToLower: lower-cases ASCII letters only. This is exact for the test against `.jpg`, `.jpeg` and `.png`, but not for the whole URL.
- Text lengths count characters, not UTF-16 code units. A surrogate pair counts as one character in the 250-character cut.

=== FILE: background.dfy ===
/**
 * The background service worker: the global `session` record, the message listener and the
 * download pipeline, as methods that update that record in place. The pipeline methods are
 * proved to leave the record in the state the specification functions of `Feed` and `Pipeline`
 * compute; the handshake, the cancel handler, a suspension and the teardown state their effect
 * on the record directly.
 */
module Background {
  import opened Wrappers
  import opened Pins
  import opened Filename
  import opened ImageSelect
  import opened BoardUrl
  import opened Feed
  import opened SessionState
  import opened Pipeline

  /** The session record the listener creates and the pipeline updates. */
  class Session {
    var canceled: bool
    var status: Status
    var completed: nat
    var total: nat
    var error: Option<string>

    /** The record a `START_BOARD_DOWNLOAD` message installs. */
    constructor ()
      ensures Snap() == Started
    {
      canceled := false;
      status := Downloading;
      completed := 0;
      total := 0;
      error := None;
    }

    /** The record as a value. */
    function Snap(): Snapshot
      reads this
    {
      Snapshot(canceled, status, completed, total, error)
    }
  }

  /** The messages the listener handles; any other type is ignored. */
  datatype Message = PopupReady | StartBoardDownload(boardUrl: string) | CancelBoardDownload | Other

  /** `{ downloading: !!session, state: session || null }`. */
  datatype Reply = Reply(downloading: bool, state: Option<Snapshot>)

  /**
   * The worker's global state (`session`), the downloads it has handed to the browser, and the
   * number of suspensions its pipeline has gone through, which places cancel messages in time.
   */
  class Worker {
    var session: Session?
    var downloads: seq<DownloadRequest>
    var ticks: nat

    constructor ()
      ensures session == null && downloads == [] && ticks == 0
    {
      session := null;
      downloads := [];
      ticks := 0;
    }

    /** The listener. `START_BOARD_DOWNLOAD` runs the whole pipeline, cancel messages included. */
    method OnMessage(message: Message, env: Env, pages: seq<Page>) returns (reply: Option<Reply>)
      requires message.StartBoardDownload? ==> Terminates(pages)
      modifies this, session
      ensures message.PopupReady? ==> reply.Some? && unchanged(this) && (session != null ==> unchanged(session))
      ensures message.PopupReady? ==>
        (reply.value.downloading <==> session != null)
        && (if session != null then reply.value.state == Some(session.Snap()) else reply.value.state.None?)
      ensures !message.PopupReady? ==> reply.None?
      ensures message.StartBoardDownload? ==> (
        TerminatesEnds(pages, Digests(pages));
        var o := BoardRun(message.boardUrl, env, Digests(pages), Started, old(ticks));
        session != null && fresh(session) && session.Snap() == o.session
        && downloads == old(downloads) + o.downloads && ticks == o.tick)
      ensures message.CancelBoardDownload? ==>
        session == old(session) && downloads == old(downloads) && ticks == old(ticks)
        && (session != null ==> session.Snap() == Cancel(old(session.Snap())))
      ensures message.Other? ==> unchanged(this) && (session != null ==> unchanged(session))
    {
      match message
      case PopupReady =>
        var r := Handshake();
        reply := Some(r);
      case StartBoardDownload(url) =>
        Start(url, env, pages);
        reply := None;
      case CancelBoardDownload =>
        CancelCurrent();
        reply := None;
      case Other =>
        reply := None;
    }

    /** `POPUP_READY`: whether a session exists, and its record. */
    method Handshake() returns (r: Reply)
      ensures r.downloading <==> session != null
      ensures session != null ==> r.state == Some(session.Snap())
      ensures session == null ==> r.state.None?
    {
      if session == null {
        r := Reply(false, None);
      } else {
        r := Reply(true, Some(session.Snap()));
      }
    }

    /** `START_BOARD_DOWNLOAD`: install a fresh record and run the pipeline on it. */
    method Start(url: string, env: Env, pages: seq<Page>)
      requires Terminates(pages)
      modifies this
      ensures session != null && fresh(session)
      ensures (
        TerminatesEnds(pages, Digests(pages));
        var o := BoardRun(url, env, Digests(pages), Started, old(ticks));
        session.Snap() == o.session && downloads == old(downloads) + o.downloads && ticks == o.tick)
    {
      session := new Session();
      TerminatesEnds(pages, Digests(pages));
      DownloadBoardImages(url, env, pages, Digests(pages));
    }

    /** `CANCEL_BOARD_DOWNLOAD`: raise the flag and set the status, if there is a session. */
    method CancelCurrent()
      modifies session
      ensures session != null ==> session.Snap() == Cancel(old(session.Snap()))
    {
      if session != null {
        session.canceled := true;
        session.status := Canceled;
      }
    }

    /** The timer set in `finally`: the record is dropped. */
    method Teardown()
      modifies this
      ensures session == null && downloads == old(downloads) && ticks == old(ticks)
    {
      session := null;
    }

    /** An `await`: the listener may handle the cancel message meanwhile. */
    method Suspend(env: Env)
      requires session != null
      modifies this, session
      ensures session == old(session) && downloads == old(downloads) && ticks == old(ticks) + 1
      ensures session.Snap() == SessionState.Suspend(old(session.Snap()), env.cancelAt, old(ticks))
    {
      if env.cancelAt == Some(ticks) {
        CancelCurrent();
      }
      ticks := ticks + 1;
    }

    /** `fetchBoardInfo(boardUrl)`: parse the URL, await the lookup, read the id and the name. */
    method FetchBoardInfo(url: string, env: Env) returns (r: Result<string>)
      requires session != null
      modifies this, session
      ensures session == old(session) && downloads == old(downloads)
      ensures ParseBoardUrl(url).Err? ==>
        r == Err(ParseBoardUrl(url).error) && ticks == old(ticks) && session.Snap() == old(session.Snap())
      ensures ParseBoardUrl(url).Ok? ==>
        ticks == old(ticks) + 1
        && session.Snap() == SessionState.Suspend(old(session.Snap()), env.cancelAt, old(ticks))
        && r == (if Found(env.board) then Ok(BoardName(env.board)) else Err(BoardNotFound))
    {
      var parsed := ParseBoardUrl(url);
      if parsed.Err? {
        return Err(parsed.error);
      }
      Suspend(env);
      if !Found(env.board) {
        return Err(BoardNotFound);
      }
      return Ok(BoardName(env.board));
    }

    /**
     * `fetchImageUrlsForBoard` from the `i`-th request: the pagination, one suspension per page.
     * `feed` is the digest of each response, which the specification of the run is stated in.
     */
    method FetchImageUrlsForBoard(s: Session, env: Env, pages: seq<Page>, ghost feed: seq<PageResult>, i: nat)
      returns (r: Result<seq<ImageRecord>>)
      requires session == s && DigestsOf(feed, pages) && Ends(feed) && i < |pages|
      modifies this, s
      ensures session == s && downloads == old(downloads)
      ensures var o := FetchRun(feed, i, old(s.Snap()), env.cancelAt, old(ticks));
        r == o.images && s.Snap() == o.session && ticks == o.tick
      decreases |pages| - i
    {
      if s.canceled {
        return Ok([]);
      }
      Suspend(env);
      var page := ReadPage(pages[i]);
      assert feed[i] == page;
      if page.next {
        var rest := FetchImageUrlsForBoard(s, env, pages, feed, i + 1);
        return Join(page.images, rest);
      }
      return page.images;
    }

    /** The download loop: one request per record, stopping at a cancel or a rejected download. */
    method DownloadImages(images: seq<ImageRecord>, boardName: string, s: Session, env: Env)
      returns (failure: Option<string>)
      requires session == s
      modifies this, s
      ensures session == s
      ensures var o := DownloadRun(images, 0, boardName, old(s.Snap()), env.failures, env.cancelAt, old(ticks));
        downloads == old(downloads) + o.downloads && ticks == o.tick
        && (if failure.Some? then Fail(s.Snap(), failure.value) else s.Snap()) == o.session
    {
      ghost var target := DownloadRun(images, 0, boardName, s.Snap(), env.failures, env.cancelAt, ticks);
      var k := 0;
      while k < |images|
        invariant 0 <= k <= |images| && session == s
        invariant var o := DownloadRun(images, k, boardName, s.Snap(), env.failures, env.cancelAt, ticks);
          o.session == target.session && o.tick == target.tick
          && downloads + o.downloads == old(downloads) + target.downloads
        decreases |images| - k
      {
        if s.canceled {
          s.status := Canceled;
          return None;
        }
        ghost var before := DownloadRun(images, k, boardName, s.Snap(), env.failures, env.cancelAt, ticks);
        ghost var prior := downloads;
        var request := RequestFor(boardName, images[k]);
        downloads := downloads + [request];
        Suspend(env);
        if k in env.failures {
          return Some(env.failures[k]);
        }
        s.completed := s.completed + 1;
        k := k + 1;
        ghost var after := DownloadRun(images, k, boardName, s.Snap(), env.failures, env.cancelAt, ticks);
        assert before.downloads == [request] + after.downloads;
        assert downloads + after.downloads == prior + before.downloads;
      }
      s.status := Complete;
      return None;
    }

    /** `downloadBoardImages(boardUrl)` on the current record; a thrown error ends in the `catch` block. */
    method DownloadBoardImages(url: string, env: Env, pages: seq<Page>, ghost feed: seq<PageResult>)
      requires session != null && DigestsOf(feed, pages) && Ends(feed)
      modifies this, session
      ensures session == old(session)
      ensures var o := BoardRun(url, env, feed, old(session.Snap()), old(ticks));
        session.Snap() == o.session && downloads == old(downloads) + o.downloads && ticks == o.tick
    {
      var s := session;
      var failure: Option<string> := None;
      var info := FetchBoardInfo(url, env);
      if info.Err? {
        failure := Some(info.error);
      } else {
        var images := FetchImageUrlsForBoard(s, env, pages, feed, 0);
        if images.Err? {
          failure := Some(images.error);
        } else {
          s.total := |images.value|;
          s.completed := 0;
          failure := DownloadImages(images.value, info.value, s, env);
        }
      }
      if failure.Some? {
        s.status := Error;
        s.error := Some(ErrorText(failure.value));
      }
    }
  }

  /**
   * One response once it has arrived: a failed request throws, otherwise the pin loop runs and
   * the bookmark decides whether another page is requested.
   */
  method ReadPage(page: Page) returns (d: PageResult)
    ensures d == Digest(page)
  {
    if !IsOk(page) {
      return PageResult(Err(FeedError(page.status)), false);
    }
    var images := CollectPageImages(page.pins);
    if images.Err? {
      return PageResult(images, false);
    }
    return PageResult(images, HasNext(page));
  }

  /** The pin loop of one page: skip videos and pins without an acceptable image, throw on `null`. */
  method CollectPageImages(pins: seq<PinValue>) returns (r: Result<seq<ImageRecord>>)
    ensures r == PageImages(pins)
  {
    var images: seq<ImageRecord> := [];
    var k := 0;
    while k < |pins|
      invariant 0 <= k <= |pins|
      invariant PageImages(pins[..k]) == Ok(images)
    {
      var pin := pins[k];
      if pin.Absent? {
        PageFailsOnNullPin(pins);
        return Err(NullPinError);
      }
      PageImagesPrefix(pins, k);
      var record := PinRecord(pin);
      if record.Some? {
        images := images + [record.value];
      }
      k := k + 1;
    }
    assert pins[..k] == pins;
    return Ok(images);
  }

  /** The loop body for a pin that is not `null`: skip a video or a pin without an acceptable image. */
  method PinRecord(pin: PinValue) returns (record: Option<ImageRecord>)
    requires !pin.Absent?
    ensures PinImage(pin) == Ok(record)
  {
    if pin.Object? && pin.pin.isVideo {
      return None;
    }
    var selected := SelectDownloadableImage(pin);
    if selected.None? {
      return None;
    }
    return Some(ImageRecord(selected.value.url, selected.value.ext, FilenameFromPin(pin, "pin-" + pin.pin.id)));
  }
}

=== FILE: board_url.dfy ===
/**
 * `parseBoardUrl`: accepts exactly the URLs `https://www.pinterest.com/<username>/<slug>` with an
 * optional trailing `/`, where both segments are non-empty and contain no `/`; the match is
 * case-sensitive and anchored at both ends.
 */
module BoardUrl {
  import opened Wrappers

  const BoardPrefix := "https://www.pinterest.com/"
  const InvalidUrl := "Invalid Pinterest board URL"

  /** The parsed board: its two path segments and the `/<username>/<slug>/` source URL. */
  datatype BoardRef = BoardRef(username: string, slug: string, sourceUrl: string)

  /** What `[^/]+` matches. */
  predicate IsSegment(s: string)
  {
    s != [] && '/' !in s
  }

  /** The board URL written out from its segments. */
  function BoardUrlOf(username: string, slug: string, trailingSlash: bool): string
  {
    BoardPrefix + username + "/" + slug + (if trailingSlash then "/" else "")
  }

  /** The index of the first `c` in `s`. */
  function IndexOf(s: string, c: char): (r: Option<nat>)
    ensures r.Some? ==> r.value < |s| && s[r.value] == c && c !in s[..r.value]
    ensures r.None? ==> c !in s
  {
    if s == [] then None
    else if s[0] == c then Some(0)
    else match IndexOf(s[1..], c)
      case None => None
      case Some(k) =>
        assert s[..k + 1] == [s[0]] + s[1..][..k];
        Some(k + 1)
  }

  /** `url` with one trailing `/` removed, if it has one. */
  function DropTrailingSlash(s: string): (r: string)
    ensures r == s || (s == r + "/")
  {
    if s != [] && s[|s| - 1] == '/' then
      assert s == s[..|s| - 1] + "/";
      s[..|s| - 1]
    else s
  }

  /** The part of the pattern after the host: `([^/]+)\/([^/]+)\/?$`. */
  function ParsePath(path: string): (r: Result<BoardRef>)
    ensures r.Err? ==> r.error == InvalidUrl
    ensures r.Ok? ==> IsSegment(r.value.username) && IsSegment(r.value.slug)
    ensures r.Ok? ==> r.value.sourceUrl == "/" + r.value.username + "/" + r.value.slug + "/"
  {
    var body := DropTrailingSlash(path);
    match IndexOf(body, '/')
    case None => Err(InvalidUrl)
    case Some(k) =>
      var username := body[..k];
      var slug := body[k + 1..];
      if username == [] || slug == [] || '/' in slug then Err(InvalidUrl)
      else Ok(BoardRef(username, slug, "/" + username + "/" + slug + "/"))
  }

  /** `parseBoardUrl(boardUrl)`; the thrown error becomes `Err`. */
  function ParseBoardUrl(url: string): (r: Result<BoardRef>)
    ensures r.Err? ==> r.error == InvalidUrl
    ensures r.Ok? ==> IsSegment(r.value.username) && IsSegment(r.value.slug)
    ensures r.Ok? ==> r.value.sourceUrl == "/" + r.value.username + "/" + r.value.slug + "/"
  {
    if !(BoardPrefix <= url) then Err(InvalidUrl)
    else ParsePath(url[|BoardPrefix|..])
  }

  /** A URL on the board host is parsed by its path. */
  lemma ParseAfterPrefix(path: string)
    ensures ParseBoardUrl(BoardPrefix + path) == ParsePath(path)
  {
    assert (BoardPrefix + path)[|BoardPrefix|..] == path;
  }

  /** An accepted path is `<username>/<slug>`, with or without a trailing `/`. */
  lemma PathOfParse(path: string)
    requires ParsePath(path).Ok?
    ensures var b := ParsePath(path).value;
      path == b.username + "/" + b.slug || path == b.username + "/" + b.slug + "/"
  {
    var body := DropTrailingSlash(path);
    var k := IndexOf(body, '/').value;
    assert body == body[..k] + "/" + body[k + 1..];
  }

  /** Putting the host back in front of the path. */
  lemma Regroup(prefix: string, username: string, slug: string, tail: string)
    ensures prefix + username + "/" + slug + tail == prefix + (username + "/" + slug + tail)
  {
  }

  /** Every accepted URL is a board URL built from the returned segments. */
  lemma ParseOnlyAcceptsBoardUrls(url: string)
    requires ParseBoardUrl(url).Ok?
    ensures var b := ParseBoardUrl(url).value;
      url == BoardUrlOf(b.username, b.slug, false) || url == BoardUrlOf(b.username, b.slug, true)
  {
    var path := url[|BoardPrefix|..];
    assert url == BoardPrefix + path;
    PathOfParse(path);
    var b := ParsePath(path).value;
    Regroup(BoardPrefix, b.username, b.slug, "");
    Regroup(BoardPrefix, b.username, b.slug, "/");
    assert b.username + "/" + b.slug + "" == b.username + "/" + b.slug;
  }

  /** The first `/` after a slash-free segment is the one that ends it. */
  lemma {:induction false} IndexOfEndsSegment(segment: string, tail: string)
    requires '/' !in segment
    ensures IndexOf(segment + "/" + tail, '/') == Some(|segment|)
  {
    if segment != [] {
      assert (segment + "/" + tail)[1..] == segment[1..] + "/" + tail;
      IndexOfEndsSegment(segment[1..], tail);
    }
  }

  /** Only the optional trailing `/` is removed from `<username>/<slug>`. */
  lemma DropsOnlyTrailingSlash(body: string, slug: string, trailingSlash: bool)
    requires IsSegment(slug) && |slug| <= |body| && body[|body| - |slug|..] == slug
    ensures DropTrailingSlash(body + (if trailingSlash then "/" else "")) == body
  {
    var rest := body + (if trailingSlash then "/" else "");
    if trailingSlash {
      assert rest[..|rest| - 1] == body;
    } else {
      assert rest[|rest| - 1] == slug[|slug| - 1];
    }
  }

  /** Every board URL is accepted, and its segments come back unchanged. */
  lemma ParseAcceptsBoardUrls(username: string, slug: string, trailingSlash: bool)
    requires IsSegment(username) && IsSegment(slug)
    ensures ParseBoardUrl(BoardUrlOf(username, slug, trailingSlash))
      == Ok(BoardRef(username, slug, "/" + username + "/" + slug + "/"))
  {
    var body := username + "/" + slug;
    var tail := if trailingSlash then "/" else "";
    Regroup(BoardPrefix, username, slug, tail);
    ParseAfterPrefix(body + tail);
    assert body[|body| - |slug|..] == slug;
    DropsOnlyTrailingSlash(body, slug, trailingSlash);
    IndexOfEndsSegment(username, slug);
    assert body[..|username|] == username;
    assert body[|username| + 1..] == slug;
  }
}

=== FILE: feed.dfy ===
/**
 * `fetchImageUrlsForBoard` as a specification: the pins of one feed page become image records,
 * and the pages are requested one after another, following the bookmark, until a page has no
 * bookmark, a request fails, or the session has been canceled.
 *
 * The feed endpoint is abstract: `pages[k]` is the response to the `k`-th request of a run.
 */
module Feed {
  import opened Wrappers
  import opened Text
  import opened Pins
  import opened Filename
  import opened ImageSelect
  import opened SessionState

  /** `{ url, ext, filename }` pushed for each downloadable pin. */
  datatype ImageRecord = ImageRecord(url: string, ext: string, filename: string)

  /**
   * One feed response: its HTTP status, `resource_response.data` (`[]` when absent) and
   * `resource_response.bookmark`.
   */
  datatype Page = Page(status: int, pins: seq<PinValue>, bookmark: Option<string>)

  /** `res.ok`. */
  predicate IsOk(p: Page)
  {
    200 <= p.status <= 299
  }

  /** The bookmark is truthy: present and not the empty string. */
  predicate HasNext(p: Page)
  {
    p.bookmark.Some? && p.bookmark.value != []
  }

  function FeedError(status: int): string
  {
    "Failed to fetch board feed: " + IntToString(status)
  }

  /** The message of the `TypeError` raised by `pin.is_video` on a `null` pin. */
  const NullPinError := "Cannot read properties of null (reading 'is_video')"

  /** A record the download loop can use: an allowed extension that the URL ends with, and a usable name. */
  predicate Downloadable(r: ImageRecord)
  {
    r.ext in AllowedExts && EndsWith(ToLower(r.url), r.ext)
    && (SafeName(r.filename) || "pin-" <= r.filename)
  }

  /** The body of the `for (const pin of pins)` loop for one pin: skip it, record it, or throw. */
  function PinImage(pin: PinValue): (r: Result<Option<ImageRecord>>)
    ensures r.Err? <==> pin.Absent?
    ensures r.Err? ==> r.error == NullPinError
    ensures r.Ok? && r.value.Some? ==>
      pin.Object? && !pin.pin.isVideo
      && SelectDownloadableImage(pin) == Some(Selected(r.value.value.url, r.value.value.ext))
      && r.value.value.filename == FilenameFromPin(pin, "pin-" + pin.pin.id)
    ensures pin.Object? && !pin.pin.isVideo && SelectDownloadableImage(pin).Some? ==> r.Ok? && r.value.Some?
  {
    match pin
    case Absent => Err(NullPinError)
    case Primitive => Ok(None)
    case Object(p) =>
      if p.isVideo then Ok(None)
      else
        match SelectDownloadableImage(pin)
        case None => Ok(None)
        case Some(sel) => Ok(Some(ImageRecord(sel.url, sel.ext, FilenameFromPin(pin, "pin-" + p.id))))
  }

  /** One turn of the pin loop: `acc` so far, extended by what `pin` yields. */
  function Step(acc: Result<seq<ImageRecord>>, pin: PinValue): (r: Result<seq<ImageRecord>>)
    ensures acc.Err? ==> r == acc
    ensures acc.Ok? ==> (r.Err? <==> pin.Absent?)
    ensures r.Ok? ==> acc.Ok? && acc.value <= r.value && |r.value| <= |acc.value| + 1
    ensures r.Ok? && |r.value| == |acc.value| + 1 ==> PinImage(pin) == Ok(Some(r.value[|acc.value|]))
    ensures acc.Ok? && PinImage(pin).Ok? && PinImage(pin).value.Some? ==>
      r == Ok(acc.value + [PinImage(pin).value.value])
  {
    if acc.Err? then acc
    else
      match PinImage(pin)
      case Err(e) => Err(e)
      case Ok(None) => acc
      case Ok(Some(x)) => Ok(acc.value + [x])
  }

  /** The records of one page, in pin order; the first `null` pin aborts the page. */
  function PageImages(pins: seq<PinValue>): (r: Result<seq<ImageRecord>>)
    ensures r.Err? ==> r.error == NullPinError
    ensures r.Ok? ==> |r.value| <= |pins|
    decreases |pins|
  {
    if pins == [] then Ok([])
    else Step(PageImages(pins[..|pins| - 1]), pins[|pins| - 1])
  }

  /** The page fails exactly when one of its pins is `null`. */
  lemma {:induction false} PageFailsOnNullPin(pins: seq<PinValue>)
    ensures PageImages(pins).Err? <==> exists k :: 0 <= k < |pins| && pins[k].Absent?
    decreases |pins|
  {
    if pins != [] {
      var init := pins[..|pins| - 1];
      PageFailsOnNullPin(init);
      if exists k :: 0 <= k < |init| && init[k].Absent? {
        var k :| 0 <= k < |init| && init[k].Absent?;
        assert pins[k].Absent?;
      }
      if exists k :: 0 <= k < |pins| && pins[k].Absent? {
        var k :| 0 <= k < |pins| && pins[k].Absent?;
        if k < |init| { assert init[k].Absent?; }
      }
    }
  }

  /** The pin loop has produced only downloadable records so far (or has thrown). */
  ghost predicate AllDownloadable(acc: Result<seq<ImageRecord>>)
  {
    acc.Ok? ==> forall k :: 0 <= k < |acc.value| ==> Downloadable(acc.value[k])
  }

  /** A record made from a pin is downloadable. */
  lemma PinImageDownloadable(pin: PinValue)
    requires PinImage(pin).Ok? && PinImage(pin).value.Some?
    ensures Downloadable(PinImage(pin).value.value)
  {
    var sel := SelectDownloadableImage(pin).value;
    assert Downloadable(ImageRecord(sel.url, sel.ext, FilenameFromPin(pin, "pin-" + pin.pin.id)));
  }

  /** One turn of the loop keeps every record downloadable. */
  lemma StepDownloadable(acc: Result<seq<ImageRecord>>, pin: PinValue)
    requires AllDownloadable(acc)
    ensures AllDownloadable(Step(acc, pin))
  {
    if acc.Ok? && PinImage(pin).Ok? && PinImage(pin).value.Some? {
      PinImageDownloadable(pin);
      var r := acc.value + [PinImage(pin).value.value];
      assert forall k :: 0 <= k < |acc.value| ==> r[k] == acc.value[k];
    }
  }

  /** Every record a page yields names an allowed extension its URL ends with, and a usable file name. */
  lemma {:induction false} PageImagesDownloadable(pins: seq<PinValue>)
    ensures AllDownloadable(PageImages(pins))
    decreases |pins|
  {
    if pins != [] {
      var init := pins[..|pins| - 1];
      PageImagesDownloadable(init);
      StepDownloadable(PageImages(init), pins[|pins| - 1]);
    }
  }

  /** Joins the results of two consecutive runs of the pin loop. */
  function Join(a: Result<seq<ImageRecord>>, b: Result<seq<ImageRecord>>): Result<seq<ImageRecord>>
  {
    if a.Err? then a else if b.Err? then b else Ok(a.value + b.value)
  }

  lemma JoinStep(a: Result<seq<ImageRecord>>, b: Result<seq<ImageRecord>>, pin: PinValue)
    ensures Join(a, Step(b, pin)) == Step(Join(a, b), pin)
  {
    if a.Ok? && b.Ok? && PinImage(pin).Ok? && PinImage(pin).value.Some? {
      assert a.value + (b.value + [PinImage(pin).value.value]) == (a.value + b.value) + [PinImage(pin).value.value];
    }
  }

  /** One more pin at the end is one more turn of the loop. */
  lemma PageImagesSnoc(pins: seq<PinValue>, pin: PinValue)
    ensures PageImages(pins + [pin]) == Step(PageImages(pins), pin)
  {
    var all := pins + [pin];
    assert all[..|all| - 1] == pins;
    assert all[|all| - 1] == pin;
  }

  /** The loop over the first `k + 1` pins is the loop over the first `k`, then pin `k`. */
  lemma PageImagesPrefix(pins: seq<PinValue>, k: nat)
    requires k < |pins|
    ensures PageImages(pins[..k + 1]) == Step(PageImages(pins[..k]), pins[k])
  {
    assert pins[..k + 1] == pins[..k] + [pins[k]];
    PageImagesSnoc(pins[..k], pins[k]);
  }

  /** The pin loop over `a + b` is the loop over `a` followed by the loop over `b`: order is kept. */
  lemma {:induction false} PageImagesSplit(a: seq<PinValue>, b: seq<PinValue>)
    ensures PageImages(a + b) == Join(PageImages(a), PageImages(b))
    decreases |b|
  {
    if b == [] {
      assert a + b == a;
      assert PageImages(b) == Ok([]);
      if PageImages(a).Ok? {
        assert PageImages(a).value + [] == PageImages(a).value;
      }
    } else {
      var init, last := b[..|b| - 1], b[|b| - 1];
      assert b == init + [last];
      assert a + b == (a + init) + [last];
      PageImagesSplit(a, init);
      PageImagesSnoc(a + init, last);
      PageImagesSnoc(init, last);
      JoinStep(PageImages(a), PageImages(init), last);
    }
  }

  /**
   * What one response contributes once it has arrived: a failed request throws, a `null` pin
   * throws, otherwise the page's records and whether its bookmark asks for another page.
   * No suspension happens between the arrival of a response and the next request.
   */
  datatype PageResult = PageResult(images: Result<seq<ImageRecord>>, next: bool)

  function Digest(p: Page): (d: PageResult)
    ensures !IsOk(p) ==> d == PageResult(Err(FeedError(p.status)), false)
    ensures IsOk(p) ==> d.images == PageImages(p.pins) && (d.next <==> d.images.Ok? && HasNext(p))
  {
    if !IsOk(p) then PageResult(Err(FeedError(p.status)), false)
    else
      match PageImages(p.pins)
      case Err(e) => PageResult(Err(e), false)
      case Ok(xs) => PageResult(Ok(xs), HasNext(p))
  }

  /**
   * `feed` lists the digests of `pages`, request by request. The link is unfolded only where a
   * digest is computed, which keeps the pin loop out of proofs about the pagination alone.
   */
  ghost predicate DigestsOf(feed: seq<PageResult>, pages: seq<Page>)
  {
    |feed| == |pages| && forall k {:trigger Digest(pages[k])} :: 0 <= k < |pages| ==> feed[k] == Digest(pages[k])
  }

  /** The digests of the responses, request by request. */
  function Digests(pages: seq<Page>): (ds: seq<PageResult>)
    ensures DigestsOf(ds, pages)
  {
    seq(|pages|, k requires 0 <= k < |pages| => Digest(pages[k]))
  }

  /** The endpoint eventually answers with a page that ends the chain. */
  predicate Terminates(pages: seq<Page>)
  {
    |pages| > 0 && !(IsOk(pages[|pages| - 1]) && HasNext(pages[|pages| - 1]))
  }

  /** The chain of digests ends. */
  predicate Ends(rs: seq<PageResult>)
  {
    |rs| > 0 && !rs[|rs| - 1].next
  }

  /** When the last response ends the chain, so does the last digest. */
  lemma TerminatesEnds(pages: seq<Page>, feed: seq<PageResult>)
    requires Terminates(pages) && DigestsOf(feed, pages)
    ensures Ends(feed)
  {
    assert feed[|pages| - 1] == Digest(pages[|pages| - 1]);
  }

  /** A feed run: the records collected, the session afterwards, and the next suspension index. */
  datatype FeedOutcome = FeedOutcome(images: Result<seq<ImageRecord>>, session: Snapshot, tick: nat)

  /**
   * The recursion of `fetchImageUrlsForBoard` from the `i`-th request on: return nothing once
   * the session is canceled; otherwise request the page (suspension `tick`, during which the
   * cancel message may land), and either stop with its result or follow its bookmark.
   */
  function FetchRun(rs: seq<PageResult>, i: nat, s: Snapshot, cancelAt: Option<nat>, tick: nat): (r: FeedOutcome)
    requires Ends(rs) && i < |rs|
    ensures tick <= r.tick <= tick + (|rs| - i)
    ensures r.session == if CancelIn(cancelAt, tick, r.tick) then Cancel(s) else s
    decreases |rs| - i
  {
    if s.canceled then FeedOutcome(Ok([]), s, tick)
    else
      var s1 := Suspend(s, cancelAt, tick);
      if rs[i].next then
        var rest := FetchRun(rs, i + 1, s1, cancelAt, tick + 1);
        FeedOutcome(Join(rs[i].images, rest.images), rest.session, rest.tick)
      else FeedOutcome(rs[i].images, s1, tick + 1)
  }

  /** Reference: the records of a list of responses, concatenated in order, failing on the first bad one. */
  function Collected(rs: seq<PageResult>): (r: Result<seq<ImageRecord>>)
    ensures r.Ok? <==> forall k :: 0 <= k < |rs| ==> rs[k].images.Ok?
  {
    if rs == [] then Ok([]) else Join(rs[0].images, Collected(rs[1..]))
  }

  /** A failed concatenation carries the error of one of its pages. */
  lemma {:induction false} CollectedError(rs: seq<PageResult>)
    requires Collected(rs).Err?
    ensures exists k :: 0 <= k < |rs| && rs[k].images == Collected(rs)
  {
    if rs[0].images.Ok? {
      CollectedError(rs[1..]);
      var k :| 0 <= k < |rs[1..]| && rs[1..][k].images == Collected(rs[1..]);
      assert rs[k + 1].images == Collected(rs);
    } else {
      assert rs[0].images == Collected(rs);
    }
  }

  /** The records a run returns are those of the pages it requested. */
  ghost predicate CollectsRequested(rs: seq<PageResult>, i: nat, s: Snapshot, cancelAt: Option<nat>, tick: nat)
    requires Ends(rs) && i < |rs|
  {
    var r := FetchRun(rs, i, s, cancelAt, tick);
    r.images == Collected(rs[i..i + (r.tick - tick)])
  }

  lemma FeedCanceledCollectsNothing(rs: seq<PageResult>, i: nat, s: Snapshot, cancelAt: Option<nat>, tick: nat)
    requires Ends(rs) && i < |rs| && s.canceled
    ensures FetchRun(rs, i, s, cancelAt, tick) == FeedOutcome(Ok([]), s, tick)
    ensures CollectsRequested(rs, i, s, cancelAt, tick)
  {
    assert rs[i..i] == [];
  }

  lemma FeedStopsAtPage(rs: seq<PageResult>, i: nat, s: Snapshot, cancelAt: Option<nat>, tick: nat)
    requires Ends(rs) && i < |rs| && !s.canceled && !rs[i].next
    ensures FetchRun(rs, i, s, cancelAt, tick) == FeedOutcome(rs[i].images, Suspend(s, cancelAt, tick), tick + 1)
    ensures CollectsRequested(rs, i, s, cancelAt, tick)
  {
    assert rs[i..i + 1] == [rs[i]];
    assert rs[i..i + 1][1..] == [];
    if rs[i].images.Ok? {
      assert rs[i].images.value + [] == rs[i].images.value;
    }
  }

  lemma FeedCollectsAcrossBookmark(rs: seq<PageResult>, i: nat, s: Snapshot, cancelAt: Option<nat>, tick: nat)
    requires Ends(rs) && i < |rs| && !s.canceled && rs[i].next
    requires i + 1 < |rs| && CollectsRequested(rs, i + 1, Suspend(s, cancelAt, tick), cancelAt, tick + 1)
    ensures CollectsRequested(rs, i, s, cancelAt, tick)
  {
    var r := FetchRun(rs, i, s, cancelAt, tick);
    var rest := FetchRun(rs, i + 1, Suspend(s, cancelAt, tick), cancelAt, tick + 1);
    var requested := rs[i..i + (r.tick - tick)];
    assert requested[0] == rs[i];
    assert requested[1..] == rs[i + 1..(i + 1) + (rest.tick - (tick + 1))];
  }

  /** The run returns exactly the records of the pages it requested, concatenated in request order. */
  lemma {:induction false} FeedCollectsRequestedPages(rs: seq<PageResult>, i: nat, s: Snapshot, cancelAt: Option<nat>, tick: nat)
    requires Ends(rs) && i < |rs|
    ensures CollectsRequested(rs, i, s, cancelAt, tick)
    decreases |rs| - i
  {
    if s.canceled {
      FeedCanceledCollectsNothing(rs, i, s, cancelAt, tick);
    } else if !rs[i].next {
      FeedStopsAtPage(rs, i, s, cancelAt, tick);
    } else {
      FeedCollectsRequestedPages(rs, i + 1, Suspend(s, cancelAt, tick), cancelAt, tick + 1);
      FeedCollectsAcrossBookmark(rs, i, s, cancelAt, tick);
    }
  }

  /** The first request from `i` on whose page ends the chain. */
  function StopIndex(rs: seq<PageResult>, i: nat): (k: nat)
    requires Ends(rs) && i < |rs|
    ensures i <= k < |rs| && !rs[k].next
    ensures forall j :: i <= j < k ==> rs[j].next
    decreases |rs| - i
  {
    if !rs[i].next then i else StopIndex(rs, i + 1)
  }

  /** Without a cancel, every page up to the one that ends the chain is requested, and no more. */
  lemma {:induction false} FeedWithoutCancel(rs: seq<PageResult>, i: nat, s: Snapshot, cancelAt: Option<nat>, tick: nat)
    requires Ends(rs) && i < |rs|
    requires !s.canceled && !CancelIn(cancelAt, tick, tick + (StopIndex(rs, i) - i))
    ensures FetchRun(rs, i, s, cancelAt, tick).tick == tick + (StopIndex(rs, i) - i) + 1
    decreases |rs| - i
  {
    if rs[i].next {
      FeedWithoutCancel(rs, i + 1, s, cancelAt, tick + 1);
    }
  }

  /** Once the cancel message lands during a request, that request is the last one. */
  lemma {:induction false} CancelEndsPagination(rs: seq<PageResult>, i: nat, s: Snapshot, cancelAt: Option<nat>, tick: nat)
    requires Ends(rs) && i < |rs|
    ensures var r := FetchRun(rs, i, s, cancelAt, tick);
      CancelIn(cancelAt, tick, r.tick) ==> r.tick == cancelAt.value + 1
    decreases |rs| - i
  {
    if !s.canceled && cancelAt != Some(tick) && rs[i].next {
      CancelEndsPagination(rs, i + 1, s, cancelAt, tick + 1);
    }
  }

  /** Every record in the digests' concatenation comes from some page's pin loop. */
  lemma {:induction false} CollectedDownloadable(rs: seq<PageResult>)
    requires forall k :: 0 <= k < |rs| && rs[k].images.Ok? ==>
      forall m :: 0 <= m < |rs[k].images.value| ==> Downloadable(rs[k].images.value[m])
    ensures var r := Collected(rs);
      r.Ok? ==> forall m :: 0 <= m < |r.value| ==> Downloadable(r.value[m])
  {
    if rs != [] {
      CollectedDownloadable(rs[1..]);
    }
  }

  /**
   * A feed run throws exactly when one of the pages it requested has a failed status or a
   * `null` pin, and the error is the status message of such a page or the `null`-pin error.
   */
  lemma FeedFailsOnBadPage(pages: seq<Page>, feed: seq<PageResult>, s: Snapshot, cancelAt: Option<nat>, tick: nat)
    requires DigestsOf(feed, pages) && Ends(feed)
    ensures var r := FetchRun(feed, 0, s, cancelAt, tick);
      r.images.Err? <==> exists k :: 0 <= k < r.tick - tick && (!IsOk(pages[k]) || PageImages(pages[k].pins).Err?)
    ensures var r := FetchRun(feed, 0, s, cancelAt, tick);
      r.images.Err? ==>
        (r.images.error == NullPinError
         || exists k :: 0 <= k < r.tick - tick && !IsOk(pages[k]) && r.images.error == FeedError(pages[k].status))
  {
    var r := FetchRun(feed, 0, s, cancelAt, tick);
    FeedCollectsRequestedPages(feed, 0, s, cancelAt, tick);
    var requested := feed[0..r.tick - tick];
    forall k | 0 <= k < |requested|
      ensures requested[k].images.Ok? <==> IsOk(pages[k]) && PageImages(pages[k].pins).Ok?
    {
      assert requested[k] == feed[k] == Digest(pages[k]);
    }
    if r.images.Err? {
      CollectedError(requested);
      var k :| 0 <= k < |requested| && requested[k].images == r.images;
      assert requested[k] == feed[k] == Digest(pages[k]);
    }
  }

  /** Every record a feed run returns is downloadable. */
  lemma FeedRecordsDownloadable(pages: seq<Page>, feed: seq<PageResult>, s: Snapshot, cancelAt: Option<nat>, tick: nat)
    requires DigestsOf(feed, pages) && Ends(feed)
    ensures var r := FetchRun(feed, 0, s, cancelAt, tick);
      r.images.Ok? ==> forall m :: 0 <= m < |r.images.value| ==> Downloadable(r.images.value[m])
  {
    var r := FetchRun(feed, 0, s, cancelAt, tick);
    FeedCollectsRequestedPages(feed, 0, s, cancelAt, tick);
    var requested := feed[0..r.tick - tick];
    forall k | 0 <= k < |requested| && requested[k].images.Ok?
      ensures forall m :: 0 <= m < |requested[k].images.value| ==> Downloadable(requested[k].images.value[m])
    {
      assert requested[k] == feed[k] == Digest(pages[k]);
      assert IsOk(pages[k]) && requested[k].images == PageImages(pages[k].pins);
      PageImagesDownloadable(pages[k].pins);
    }
    CollectedDownloadable(requested);
  }
}

=== FILE: filename.dfy ===
/**
 * `filenameFromPin`: the display name a pin is saved under. The source text is chosen
 * (description, else auto-generated alt text, else the fallback), then passed through four
 * stages: strip hashtags, strip characters that are illegal in file names, collapse
 * whitespace runs to one space, trim. An empty result gives the fallback; anything else is
 * cut to its first 250 characters.
 */
module Filename {
  import opened Wrappers
  import opened Text
  import opened Pins

  const MaxLength: nat := 250

  /** The class `[<>:"/\\|?*\x00-\x1F]`. */
  predicate IsIllegal(c: char)
  {
    c == '<' || c == '>' || c == ':' || c == '"' || c == '/' || c == '\\' || c == '|'
    || c == '?' || c == '*' || c as int <= 0x1F
  }

  /** The class `[^\s#]`: a character that continues a hashtag. */
  predicate IsTagChar(c: char)
  {
    !IsWhitespace(c) && c != '#'
  }

  /** No `#` is directly followed by a hashtag character, so `/#[^\s#]+/` finds no match. */
  predicate NoHashtag(s: string)
  {
    forall i, j :: 0 <= i < |s| && 0 <= j < |s| && j == i + 1 && s[i] == '#' ==> !IsTagChar(s[j])
  }

  predicate NoIllegal(s: string)
  {
    forall i :: 0 <= i < |s| ==> !IsIllegal(s[i])
  }

  predicate NoDoubleWhitespace(s: string)
  {
    forall i, j :: 0 <= i < |s| && 0 <= j < |s| && j == i + 1 ==> !(IsWhitespace(s[i]) && IsWhitespace(s[j]))
  }

  /** Every whitespace character is a plain space. */
  predicate OnlySpaces(s: string)
  {
    forall i :: 0 <= i < |s| && IsWhitespace(s[i]) ==> s[i] == ' '
  }

  /** No character in 0x00-0x1F (so the illegal-character stage removes only `<>:"/\\|?*`). */
  predicate NoControl(s: string)
  {
    forall i :: 0 <= i < |s| ==> s[i] as int > 0x1F
  }

  /** What a derived (non-fallback) name always satisfies. */
  predicate SafeName(s: string)
  {
    1 <= |s| <= MaxLength && !IsWhitespace(s[0])
    && NoIllegal(s) && NoDoubleWhitespace(s) && OnlySpaces(s)
  }

  /** The end of the hashtag run that starts at `i`: the first non-hashtag character. */
  function TagEnd(s: string, i: nat): (j: nat)
    requires i <= |s|
    ensures i <= j <= |s|
    ensures forall k :: i <= k < j ==> IsTagChar(s[k])
    ensures j == |s| || !IsTagChar(s[j])
    decreases |s| - i
  {
    if i == |s| || !IsTagChar(s[i]) then i else TagEnd(s, i + 1)
  }

  /** `s.replace(/#[^\s#]+/g, "")`: the global scan, left to right, removing each hashtag. */
  function StripHashtags(s: string): (r: string)
    ensures |r| <= |s|
    ensures NoHashtag(r)
    ensures (s == [] || !IsTagChar(s[0])) ==> (r == [] || !IsTagChar(r[0]))
    ensures NoHashtag(s) ==> r == s
    decreases |s|
  {
    if s == [] then []
    else if s[0] == '#' && |s| > 1 && IsTagChar(s[1]) then StripHashtags(s[TagEnd(s, 1)..])
    else [s[0]] + StripHashtags(s[1..])
  }

  /** Removing hashtags only removes characters, so it introduces no control character. */
  lemma {:induction false} StripHashtagsKeepsNoControl(s: string)
    requires NoControl(s)
    ensures NoControl(StripHashtags(s))
    decreases |s|
  {
    if s != [] {
      if s[0] == '#' && |s| > 1 && IsTagChar(s[1]) {
        var rest := s[TagEnd(s, 1)..];
        assert forall i :: 0 <= i < |rest| ==> rest[i] == s[TagEnd(s, 1) + i];
        StripHashtagsKeepsNoControl(rest);
      } else {
        var rest := s[1..];
        assert forall i :: 0 <= i < |rest| ==> rest[i] == s[1 + i];
        StripHashtagsKeepsNoControl(rest);
        var r := StripHashtags(rest);
        assert forall i :: 0 < i < |r| + 1 ==> ([s[0]] + r)[i] == r[i - 1];
      }
    }
  }

  /**
   * What the hashtag stage keeps. These three cases cover every text: it starts with a
   * character other than `#`, with a `#` that no hashtag character follows, or with a hashtag.
   */
  lemma {:induction false} StripHashtagsKeepsPlain(w: string, rest: string)
    requires '#' !in w
    ensures StripHashtags(w + rest) == w + StripHashtags(rest)
    decreases |w|
  {
    if w != [] {
      var s := w + rest;
      assert s[0] == w[0] != '#' && s[1..] == w[1..] + rest;
      assert StripHashtags(s) == [w[0]] + StripHashtags(w[1..] + rest);
      StripHashtagsKeepsPlain(w[1..], rest);
      assert w == [w[0]] + w[1..];
    } else {
      assert w + rest == rest;
    }
  }

  lemma StripHashtagsKeepsLoneHash(rest: string)
    requires rest == [] || !IsTagChar(rest[0])
    ensures StripHashtags("#" + rest) == "#" + StripHashtags(rest)
  {
    assert ("#" + rest)[1..] == rest;
  }

  /** A hashtag, `#` and the whole run of hashtag characters after it, is removed. */
  lemma StripHashtagsDropsTag(tag: string, rest: string)
    requires tag != [] && forall i :: 0 <= i < |tag| ==> IsTagChar(tag[i])
    requires rest == [] || !IsTagChar(rest[0])
    ensures StripHashtags("#" + tag + rest) == StripHashtags(rest)
  {
    var s := "#" + tag + rest;
    var j := |tag| + 1;
    assert forall k :: 1 <= k < j ==> s[k] == tag[k - 1];
    assert j < |s| ==> s[j] == rest[0];
    TagEndOfRun(s, 1, j);
    assert s[j..] == rest;
  }

  /** `TagEnd` stops exactly where the run of hashtag characters stops. */
  lemma {:induction false} TagEndOfRun(s: string, i: nat, j: nat)
    requires i <= j <= |s| && forall k :: i <= k < j ==> IsTagChar(s[k])
    requires j == |s| || !IsTagChar(s[j])
    ensures TagEnd(s, i) == j
    decreases j - i
  {
    if i < j {
      TagEndOfRun(s, i + 1, j);
    }
  }

  /** `s.replace(/[<>:"/\\|?*\x00-\x1F]/g, "")`. */
  function StripIllegal(s: string): (r: string)
    ensures |r| <= |s|
    ensures NoIllegal(r)
    ensures NoIllegal(s) ==> r == s
  {
    if s == [] then []
    else if IsIllegal(s[0]) then StripIllegal(s[1..])
    else [s[0]] + StripIllegal(s[1..])
  }

  /** The stage works on each part of a text separately. */
  lemma {:induction false} StripIllegalAppend(a: string, b: string)
    ensures StripIllegal(a + b) == StripIllegal(a) + StripIllegal(b)
    decreases |a|
  {
    if a != [] {
      var s := a + b;
      var head := if IsIllegal(a[0]) then [] else [a[0]];
      assert s[0] == a[0] && s[1..] == a[1..] + b;
      assert StripIllegal(s) == head + StripIllegal(a[1..] + b);
      assert StripIllegal(a) == head + StripIllegal(a[1..]);
      StripIllegalAppend(a[1..], b);
      assert head + (StripIllegal(a[1..]) + StripIllegal(b)) == (head + StripIllegal(a[1..])) + StripIllegal(b);
    } else {
      assert a + b == b;
    }
  }

  /** Every legal character keeps all its occurrences. */
  lemma {:induction false} StripIllegalKeepsLegal(s: string, c: char)
    requires !IsIllegal(c)
    ensures multiset(StripIllegal(s))[c] == multiset(s)[c]
    decreases |s|
  {
    if s != [] {
      StripIllegalKeepsLegal(s[1..], c);
      assert s == [s[0]] + s[1..];
    }
  }

  /** Leading whitespace removed. */
  function TrimStart(s: string): (r: string)
    ensures |r| <= |s|
    ensures r != [] ==> !IsWhitespace(r[0])
  {
    if s == [] || !IsWhitespace(s[0]) then s else TrimStart(s[1..])
  }

  /** What `TrimStart` removes is whitespace, and what it keeps is a suffix. */
  lemma {:induction false} TrimStartIsSuffix(s: string)
    ensures TrimStart(s) == s[|s| - |TrimStart(s)|..]
    ensures forall i :: 0 <= i < |s| - |TrimStart(s)| ==> IsWhitespace(s[i])
  {
    if s != [] && IsWhitespace(s[0]) {
      TrimStartIsSuffix(s[1..]);
    }
  }

  /** Trailing whitespace removed. */
  function TrimEnd(s: string): (r: string)
    ensures |r| <= |s|
    ensures r != [] ==> !IsWhitespace(r[|r| - 1])
  {
    if s == [] || !IsWhitespace(s[|s| - 1]) then s else TrimEnd(s[..|s| - 1])
  }

  /** What `TrimEnd` removes is whitespace, and what it keeps is a prefix. */
  lemma {:induction false} TrimEndIsPrefix(s: string)
    ensures TrimEnd(s) == s[..|TrimEnd(s)|]
    ensures forall i :: |TrimEnd(s)| <= i < |s| ==> IsWhitespace(s[i])
    ensures s != [] && !IsWhitespace(s[0]) ==> TrimEnd(s) != []
  {
    if s != [] && IsWhitespace(s[|s| - 1]) {
      var init := s[..|s| - 1];
      TrimEndIsPrefix(init);
      assert forall i :: 0 <= i < |init| ==> init[i] == s[i];
    }
  }

  /** Whitespace followed by text that does not start with whitespace: the start trim leaves the text. */
  lemma {:induction false} TrimStartRun(ws: string, rest: string)
    requires forall i :: 0 <= i < |ws| ==> IsWhitespace(ws[i])
    requires rest == [] || !IsWhitespace(rest[0])
    ensures TrimStart(ws + rest) == rest
    decreases |ws|
  {
    if ws != [] {
      assert (ws + rest)[1..] == ws[1..] + rest;
      TrimStartRun(ws[1..], rest);
    } else {
      assert ws + rest == rest;
    }
  }

  /** The start trim followed by the end trim is a slice with only whitespace outside it. */
  lemma TrimParts(s: string)
    ensures var a := |s| - |TrimStart(s)|;
      var b := a + |TrimEnd(TrimStart(s))|;
      a <= b <= |s| && TrimEnd(TrimStart(s)) == s[a..b]
      && (forall i :: 0 <= i < a ==> IsWhitespace(s[i]))
      && (forall i :: b <= i < |s| ==> IsWhitespace(s[i]))
  {
    var t := TrimStart(s);
    var a := |s| - |t|;
    var b := a + |TrimEnd(t)|;
    assert t == s[a..] && forall i :: 0 <= i < a ==> IsWhitespace(s[i]) by {
      TrimStartIsSuffix(s);
    }
    assert TrimEnd(t) == t[..b - a] && forall j :: b - a <= j < |t| ==> IsWhitespace(t[j]) by {
      TrimEndIsPrefix(t);
    }
    assert TrimEnd(t) == s[a..b];
    forall i | b <= i < |s| ensures IsWhitespace(s[i]) {
      assert s[i] == t[i - a];
    }
  }

  /**
   * `s.trim()`: the slice of `s` left after removing whitespace at both ends; it neither starts
   * nor ends with whitespace.
   */
  function Trim(s: string): (r: string)
    ensures r != [] ==> !IsWhitespace(r[0]) && !IsWhitespace(r[|r| - 1])
    ensures HasContent(s) <==> r != []
    ensures exists a, b ::
              0 <= a <= b <= |s| && r == s[a..b]
              && (forall i :: 0 <= i < a ==> IsWhitespace(s[i]))
              && (forall i :: b <= i < |s| ==> IsWhitespace(s[i]))
  {
    var t := TrimStart(s);
    TrimStartIsSuffix(s);
    assert HasContent(s) ==> t != [] by {
      if HasContent(s) {
        var i :| 0 <= i < |s| && !IsWhitespace(s[i]);
      }
    }
    assert t != [] ==> HasContent(s) by {
      if t != [] {
        assert s[|s| - |t|] == t[0];
      }
    }
    TrimEndIsPrefix(t);
    TrimParts(s);
    TrimEnd(t)
  }

  /** The trim of `s` is the slice `s[a..b]`, and everything outside it is whitespace. */
  lemma TrimIsSlice(s: string) returns (a: nat, b: nat)
    ensures a <= b <= |s| && Trim(s) == s[a..b]
    ensures forall i :: 0 <= i < a ==> IsWhitespace(s[i])
    ensures forall i :: b <= i < |s| ==> IsWhitespace(s[i])
  {
    TrimParts(s);
    a := |s| - |TrimStart(s)|;
    b := a + |Trim(s)|;
  }

  /** Trimming only removes characters at the two ends, so it keeps every property of the text. */
  lemma TrimKeepsLegal(s: string)
    requires NoIllegal(s)
    ensures NoIllegal(Trim(s))
  {
    var a, b := TrimIsSlice(s);
  }

  lemma TrimKeepsSingleSpaces(s: string)
    requires NoDoubleWhitespace(s) && OnlySpaces(s)
    ensures NoDoubleWhitespace(Trim(s)) && OnlySpaces(Trim(s))
  {
    var a, b := TrimIsSlice(s);
    assert NoDoubleWhitespace(s[a..b]);
  }

  lemma TrimKeepsNoHashtag(s: string)
    requires NoHashtag(s)
    ensures NoHashtag(Trim(s))
  {
    var a, b := TrimIsSlice(s);
    assert NoHashtag(s[a..b]);
  }

  /** Text without whitespace at either end is its own trim. */
  lemma TrimFixpoint(s: string)
    requires s == [] || (!IsWhitespace(s[0]) && !IsWhitespace(s[|s| - 1]))
    ensures Trim(s) == s
  {
  }

  /** `s.replace(/\s+/g, " ")`: each maximal run of whitespace becomes one space. */
  function CollapseWhitespace(s: string): (r: string)
    ensures (r == []) == (s == [])
    ensures r != [] ==> (IsWhitespace(r[0]) <==> IsWhitespace(s[0]))
    ensures r != [] && !IsWhitespace(s[0]) ==> r[0] == s[0]
    decreases |s|
  {
    if s == [] then []
    else if IsWhitespace(s[0]) then [' '] + CollapseWhitespace(TrimStart(s[1..]))
    else [s[0]] + CollapseWhitespace(s[1..])
  }

  /** After collapsing, whitespace comes one plain space at a time. */
  lemma {:induction false} CollapseLeavesSingleSpaces(s: string)
    ensures NoDoubleWhitespace(CollapseWhitespace(s)) && OnlySpaces(CollapseWhitespace(s))
    decreases |s|
  {
    if s == [] {
    } else if IsWhitespace(s[0]) {
      var t := TrimStart(s[1..]);
      CollapseLeavesSingleSpaces(t);
      var c := CollapseWhitespace(t);
      assert CollapseWhitespace(s) == [' '] + c;
      assert c != [] ==> !IsWhitespace(c[0]);
    } else {
      CollapseLeavesSingleSpaces(s[1..]);
      assert CollapseWhitespace(s) == [s[0]] + CollapseWhitespace(s[1..]);
    }
  }

  /**
   * What the collapse keeps. These two cases cover every text: it starts with a character
   * that is not whitespace, which is kept, or with a whole run of whitespace, which becomes one space.
   */
  lemma CollapseKeepsWordChar(c: char, rest: string)
    requires !IsWhitespace(c)
    ensures CollapseWhitespace([c] + rest) == [c] + CollapseWhitespace(rest)
  {
    assert ([c] + rest)[1..] == rest;
  }

  lemma CollapseRun(ws: string, rest: string)
    requires ws != [] && forall i :: 0 <= i < |ws| ==> IsWhitespace(ws[i])
    requires rest == [] || !IsWhitespace(rest[0])
    ensures CollapseWhitespace(ws + rest) == " " + CollapseWhitespace(rest)
  {
    assert (ws + rest)[0] == ws[0] && (ws + rest)[1..] == ws[1..] + rest;
    TrimStartRun(ws[1..], rest);
  }

  /** Collapsing introduces no illegal character (a space is legal). */
  lemma {:induction false} CollapseKeepsLegal(s: string)
    requires NoIllegal(s)
    ensures NoIllegal(CollapseWhitespace(s))
    decreases |s|
  {
    if s == [] {
    } else if IsWhitespace(s[0]) {
      var t := TrimStart(s[1..]);
      assert NoIllegal(t) by {
        TrimStartIsSuffix(s[1..]);
        assert NoIllegal(s[1..]);
      }
      CollapseKeepsLegal(t);
      var c := CollapseWhitespace(t);
      assert CollapseWhitespace(s) == [' '] + c;
      assert !IsIllegal(' ');
    } else {
      CollapseKeepsLegal(s[1..]);
      assert CollapseWhitespace(s) == [s[0]] + CollapseWhitespace(s[1..]);
    }
  }

  /** Text already made of single spaces is left as it is. */
  lemma {:induction false} CollapseFixpoint(s: string)
    requires NoDoubleWhitespace(s) && OnlySpaces(s)
    ensures CollapseWhitespace(s) == s
    decreases |s|
  {
    if s != [] {
      assert NoDoubleWhitespace(s[1..]) && OnlySpaces(s[1..]);
      CollapseFixpoint(s[1..]);
      if IsWhitespace(s[0]) {
        assert s[1..] == [] || !IsWhitespace(s[1..][0]);
        assert TrimStart(s[1..]) == s[1..];
      }
    }
  }

  /** Without control characters, removing illegal characters cannot join `#` to a word. */
  lemma {:induction false} StripIllegalKeepsNoHashtag(s: string)
    requires NoHashtag(s) && NoControl(s)
    ensures NoHashtag(StripIllegal(s))
    decreases |s|
  {
    if s != [] {
      var rest := s[1..];
      assert NoHashtag(rest) && NoControl(rest);
      StripIllegalKeepsNoHashtag(rest);
      if !IsIllegal(s[0]) {
        var r := StripIllegal(rest);
        assert StripIllegal(s) == [s[0]] + r;
        if s[0] == '#' && rest != [] {
          assert !IsTagChar(rest[0]);
          assert !IsIllegal(rest[0]);
          assert r[0] == rest[0];
        }
      }
    }
  }

  /** Collapsing whitespace cannot join `#` to a word either. */
  lemma {:induction false} CollapseKeepsNoHashtag(s: string)
    requires NoHashtag(s)
    ensures NoHashtag(CollapseWhitespace(s))
    decreases |s|
  {
    if s == [] {
    } else if IsWhitespace(s[0]) {
      var t := TrimStart(s[1..]);
      TrimStartIsSuffix(s[1..]);
      assert NoHashtag(t) by {
        forall i | 0 <= i < |t| - 1 && t[i] == '#' ensures !IsTagChar(t[i + 1]) {
          var k := |s[1..]| - |t| + i;
          assert t[i] == s[1..][k] == s[k + 1] && t[i + 1] == s[k + 2];
        }
      }
      CollapseKeepsNoHashtag(t);
      assert CollapseWhitespace(s) == [' '] + CollapseWhitespace(t);
    } else {
      CollapseKeepsNoHashtag(s[1..]);
      assert CollapseWhitespace(s) == [s[0]] + CollapseWhitespace(s[1..]);
    }
  }

  /** The four-stage pipeline, before the empty check and the truncation. */
  function Sanitize(s: string): string
  {
    Trim(CollapseWhitespace(StripIllegal(StripHashtags(s))))
  }

  /** What the four stages guarantee: no illegal character, single plain spaces, nothing blank at the ends. */
  lemma SanitizeIsClean(s: string)
    ensures var r := Sanitize(s);
      (r != [] ==> !IsWhitespace(r[0]) && !IsWhitespace(r[|r| - 1]))
      && NoIllegal(r) && NoDoubleWhitespace(r) && OnlySpaces(r)
  {
    var legal := StripIllegal(StripHashtags(s));
    var single := CollapseWhitespace(legal);
    CollapseLeavesSingleSpaces(legal);
    CollapseKeepsLegal(legal);
    TrimKeepsLegal(single);
    TrimKeepsSingleSpaces(single);
  }

  function Min(a: nat, b: nat): nat
  {
    if a < b then a else b
  }

  /** Cutting a sanitized, non-empty text to 250 characters leaves a safe name. */
  lemma CutIsSafe(s: string)
    requires s != [] && !IsWhitespace(s[0])
    requires NoIllegal(s) && NoDoubleWhitespace(s) && OnlySpaces(s)
    ensures SafeName(s[..Min(|s|, MaxLength)])
  {
    var cut := s[..Min(|s|, MaxLength)];
    assert cut[0] == s[0];
  }

  /** The chosen source text to a name: the fallback when nothing survives, else at most 250 characters. */
  function NameFromText(text: string, fallback: string): (r: string)
    ensures Sanitize(text) == [] ==> r == fallback
    ensures Sanitize(text) != [] ==>
      SafeName(r) && r == Sanitize(text)[..Min(|Sanitize(text)|, MaxLength)]
  {
    var name := Sanitize(text);
    if name == [] then fallback
    else
      SanitizeIsClean(text);
      CutIsSafe(name);
      name[..Min(|name|, MaxLength)]
  }

  /** A string-typed property that is truthy after `trim()`. */
  predicate NonBlank(p: Option<string>)
  {
    p.Some? && HasContent(p.value)
  }

  /** The source text: description, else auto-generated alt text; `None` means "use the fallback". */
  function SourceText(pin: PinValue): (r: Option<string>)
    ensures r.Some? ==> pin.Object? && HasContent(r.value)
    ensures pin.Object? && NonBlank(pin.pin.description) ==> r == pin.pin.description
    ensures pin.Object? && !NonBlank(pin.pin.description) ==>
      r == if NonBlank(pin.pin.autoAltText) then pin.pin.autoAltText else None
    ensures !pin.Object? ==> r.None?
  {
    match pin
    case Object(p) =>
      if NonBlank(p.description) then p.description
      else if NonBlank(p.autoAltText) then p.autoAltText
      else None
    case _ => None
  }

  /** `filenameFromPin(pin, fallback)`. */
  function FilenameFromPin(pin: PinValue, fallback: string): (r: string)
    ensures SourceText(pin).None? ==> r == fallback
    ensures SourceText(pin).Some? ==> r == NameFromText(SourceText(pin).value, fallback)
    ensures r == fallback || SafeName(r)
  {
    match SourceText(pin)
    case None => fallback
    case Some(text) => NameFromText(text, fallback)
  }

  /** On text that the four stages would not change, sanitizing is just trimming. */
  lemma SanitizeClean(t: string)
    requires NoHashtag(t) && NoIllegal(t) && NoDoubleWhitespace(t) && OnlySpaces(t)
    ensures Sanitize(t) == Trim(t)
  {
    CollapseFixpoint(t);
  }

  /** A name that is already clean, and does not end in a space, comes back unchanged. */
  lemma CleanNameIsFixpoint(t: string, fallback: string)
    requires SafeName(t) && NoHashtag(t) && !IsWhitespace(t[|t| - 1])
    ensures NameFromText(t, fallback) == t
  {
    SanitizeClean(t);
  }

  /**
   * Text without control characters derives a name in which no `#` is followed by a hashtag
   * character. (With a tab, LF, VT, FF or CR after `#`, see `HashControlSurvives`.)
   */
  lemma NameFromTextHashtagFree(t: string, fallback: string)
    requires NoControl(t) && Sanitize(t) != []
    ensures NoHashtag(NameFromText(t, fallback))
  {
    var tagless := StripHashtags(t);
    StripHashtagsKeepsNoControl(t);
    StripIllegalKeepsNoHashtag(tagless);
    CollapseKeepsNoHashtag(StripIllegal(tagless));
    TrimKeepsNoHashtag(CollapseWhitespace(StripIllegal(tagless)));
    var name := Sanitize(t);
    assert NoHashtag(name);
    assert NameFromText(t, fallback) == name[..Min(|name|, MaxLength)];
  }

  /**
   * Deriving a name from an already derived name gives it back, provided the text has no
   * control characters, does not sanitize to empty, and its 250-character cut does not end
   * on a space.
   */
  lemma NameFromTextIdempotent(t: string, fallback: string)
    requires NoControl(t) && Sanitize(t) != []
    requires |Sanitize(t)| <= MaxLength || Sanitize(t)[MaxLength - 1] != ' '
    ensures NameFromText(NameFromText(t, fallback), fallback) == NameFromText(t, fallback)
  {
    NameFromTextHashtagFree(t, fallback);
    var name := Sanitize(t);
    var r := NameFromText(t, fallback);
    assert r == name[..Min(|name|, MaxLength)];
    assert r[|r| - 1] == name[Min(|name|, MaxLength) - 1];
    CleanNameIsFixpoint(r, fallback);
  }

  /** Lower-case ASCII letters only. */
  predicate IsWord(w: string)
  {
    forall i :: 0 <= i < |w| ==> 'a' <= w[i] <= 'z'
  }

  lemma WordIsClean(w: string)
    requires IsWord(w)
    ensures NoHashtag(w) && NoIllegal(w) && NoControl(w) && OnlySpaces(w) && NoDoubleWhitespace(w)
    ensures forall i :: 0 <= i < |w| ==> !IsWhitespace(w[i])
  {
  }

  /**
   * The cut to 250 characters comes after the trim, so it can leave a trailing space,
   * which a second derivation then removes.
   */
  lemma CutCanLeaveTrailingSpace(a: string, fallback: string)
    requires |a| == MaxLength - 1 && IsWord(a)
    ensures NameFromText(a + " b", fallback) == a + " "
    ensures NameFromText(a + " ", fallback) == a
  {
    CutKeepsTrailingSpace(a, fallback);
    ShortNameKept(a, fallback);
  }

  lemma CutKeepsTrailingSpace(a: string, fallback: string)
    requires |a| == MaxLength - 1 && IsWord(a)
    ensures NameFromText(a + " b", fallback) == a + " "
  {
    var long := a + " b";
    CutOfLongText(a);
    assert long[..MaxLength] == a + " ";
  }

  lemma ShortNameKept(a: string, fallback: string)
    requires |a| == MaxLength - 1 && IsWord(a)
    ensures NameFromText(a + " ", fallback) == a
  {
    SecondPassDropsSpace(a);
    assert a[..|a|] == a;
  }

  lemma CutOfLongText(a: string)
    requires |a| == MaxLength - 1 && IsWord(a)
    ensures Sanitize(a + " b") == a + " b"
  {
    WordIsClean(a);
    var text := a + " b";
    assert OnlySpaces(text) && NoDoubleWhitespace(text) by {
      forall i | 0 <= i < MaxLength - 1 ensures !IsWhitespace(text[i]) {
        assert text[i] == a[i];
      }
    }
    assert NoHashtag(text) && NoIllegal(text);
    SanitizeClean(text);
    TrimFixpoint(text);
  }

  lemma SecondPassDropsSpace(a: string)
    requires |a| == MaxLength - 1 && IsWord(a)
    ensures Sanitize(a + " ") == a
  {
    WordIsClean(a);
    var cut := a + " ";
    assert NoHashtag(cut) && NoIllegal(cut) && NoDoubleWhitespace(cut) && OnlySpaces(cut);
    SanitizeClean(cut);
    assert TrimStart(cut) == cut;
    assert cut[..|cut| - 1] == a;
    assert TrimEnd(cut) == TrimEnd(a) == a;
  }

  /** A whitespace character the illegal-character stage removes: tab, LF, VT, FF or CR. */
  predicate ControlSpace(c: char)
  {
    IsWhitespace(c) && c as int <= 0x1F
  }

  /**
   * Hashtags are removed before control characters, so a tab, LF, VT, FF or CR between `#` and
   * a word leaves the hashtag in the name.
   */
  lemma HashControlSurvives(c: char, w: string, fallback: string)
    requires ControlSpace(c) && 1 <= |w| < MaxLength && IsWord(w)
    ensures NameFromText(['#', c] + w, fallback) == "#" + w
  {
    HashControlSanitize(c, w);
  }

  lemma HashControlSanitize(c: char, w: string)
    requires ControlSpace(c) && 1 <= |w| && IsWord(w)
    ensures Sanitize(['#', c] + w) == "#" + w
  {
    HashControlStage(c, w);
    var name := "#" + w;
    WordIsClean(w);
    assert OnlySpaces(name) && NoDoubleWhitespace(name) by {
      forall i | 0 <= i < |name| ensures !IsWhitespace(name[i]) {
        if i > 0 { assert name[i] == w[i - 1]; }
      }
    }
    CollapseFixpoint(name);
    TrimFixpoint(name);
  }

  lemma HashControlStage(c: char, w: string)
    requires ControlSpace(c) && 1 <= |w| && IsWord(w)
    ensures StripIllegal(StripHashtags(['#', c] + w)) == "#" + w
  {
    WordIsClean(w);
    var text := ['#', c] + w;
    var tail := [c] + w;
    assert text[1..] == tail && tail[1..] == w;
    assert StripHashtags(tail) == [tail[0]] + StripHashtags(w);
    assert StripHashtags(text) == text;
    assert StripIllegal(tail) == StripIllegal(w);
  }
}

=== FILE: image_select.dfy ===
/**
 * `selectDownloadableImage`: among a pin's image variants whose `url` is a string, sorted by
 * pixel area (largest first, ties in input order because the sort is stable), the first one
 * whose lower-cased URL ends in `.jpg`, `.jpeg` or `.png`.
 */
module ImageSelect {
  import opened Wrappers
  import opened Text
  import opened Pins

  const AllowedExts: seq<string> := [".jpg", ".jpeg", ".png"]

  /** The `{ url, ext }` record the selector returns. */
  datatype Selected = Selected(url: string, ext: string)

  function Area(v: Variant): int
  {
    v.width * v.height
  }

  /** `exts.find(ext => u.endsWith(ext))`. */
  function FindExt(u: string, exts: seq<string>): (r: Option<string>)
    ensures r.Some? ==> r.value in exts && EndsWith(u, r.value)
    ensures r.None? <==> forall e :: e in exts ==> !EndsWith(u, e)
  {
    if exts == [] then None
    else if EndsWith(u, exts[0]) then Some(exts[0])
    else FindExt(u, exts[1..])
  }

  /** The variant has a string URL whose lower-cased form ends in an allowed extension. */
  predicate Acceptable(v: Variant)
  {
    v.url.Some? && FindExt(ToLower(v.url.value), AllowedExts).Some?
  }

  /** `.filter(img => typeof img?.url === "string")`. */
  function WithUrl(vs: seq<Variant>): (r: seq<Variant>)
    ensures |r| <= |vs|
    ensures forall i :: 0 <= i < |r| ==> r[i].url.Some?
  {
    if vs == [] then []
    else if vs[0].url.Some? then [vs[0]] + WithUrl(vs[1..])
    else WithUrl(vs[1..])
  }

  /** Largest area first. */
  predicate Descending(s: seq<Variant>)
  {
    forall i, j :: 0 <= i < j < |s| ==> Area(s[i]) >= Area(s[j])
  }

  /** Puts `v` before the first element whose area is not larger, i.e. after every larger one. */
  function Insert(v: Variant, s: seq<Variant>): (r: seq<Variant>)
    ensures |r| == |s| + 1
    ensures multiset(r) == multiset(s) + multiset{v}
    ensures r[0] == v || (s != [] && r[0] == s[0])
  {
    if s == [] || Area(v) >= Area(s[0]) then [v] + s
    else
      assert s == [s[0]] + s[1..];
      [s[0]] + Insert(v, s[1..])
  }

  /** Inserting into a sorted list keeps it sorted. */
  lemma {:induction false} InsertKeepsDescending(v: Variant, s: seq<Variant>)
    requires Descending(s)
    ensures Descending(Insert(v, s))
  {
    if s == [] || Area(v) >= Area(s[0]) {
      ConsDescending(v, s);
    } else {
      InsertKeepsDescending(v, s[1..]);
      ConsDescending(s[0], Insert(v, s[1..]));
    }
  }

  /** A sorted list stays sorted under a head at least as large as its own. */
  lemma ConsDescending(x: Variant, t: seq<Variant>)
    requires Descending(t) && (t != [] ==> Area(x) >= Area(t[0]))
    ensures Descending([x] + t)
  {
    var r := [x] + t;
    forall i, j | 0 <= i < j < |r|
      ensures Area(r[i]) >= Area(r[j])
    {
      assert r[j] == t[j - 1];
      if i > 0 {
        assert r[i] == t[i - 1];
      }
    }
  }

  /**
   * `.sort((a, b) => (b.width * b.height) - (a.width * a.height))`: an insertion sort, stable
   * because each element is inserted ahead of the equal-area elements that follow it in the input.
   */
  function SortByArea(s: seq<Variant>): (r: seq<Variant>)
    ensures Descending(r)
    ensures multiset(r) == multiset(s)
  {
    if s == [] then []
    else
      assert s == [s[0]] + s[1..];
      InsertKeepsDescending(s[0], SortByArea(s[1..]));
      Insert(s[0], SortByArea(s[1..]))
  }

  /** The `for ... of` search: the first acceptable variant of the sorted list. */
  function FirstAcceptable(s: seq<Variant>): (r: Option<Variant>)
    ensures r.Some? ==> r.value in s && Acceptable(r.value)
    ensures r.None? <==> forall i :: 0 <= i < |s| ==> !Acceptable(s[i])
  {
    if s == [] then None
    else if Acceptable(s[0]) then Some(s[0])
    else FirstAcceptable(s[1..])
  }

  /** The record returned for an acceptable variant: its original URL and the first matching extension. */
  function SelectionOf(v: Variant): (r: Selected)
    requires Acceptable(v)
    ensures r.url == v.url.value
    ensures r.ext in AllowedExts && EndsWith(ToLower(r.url), r.ext)
  {
    Selected(v.url.value, FindExt(ToLower(v.url.value), AllowedExts).value)
  }

  /** `selectDownloadableImage(pin)`; `None` is the `null` result. */
  function SelectDownloadableImage(pin: PinValue): (r: Option<Selected>)
    ensures !pin.Object? || pin.pin.images.None? ==> r.None?
    ensures r.Some? ==> r.value.ext in AllowedExts && EndsWith(ToLower(r.value.url), r.value.ext)
  {
    if !pin.Object? || pin.pin.images.None? then None
    else
      match FirstAcceptable(SortByArea(WithUrl(pin.pin.images.value)))
      case None => None
      case Some(v) => Some(SelectionOf(v))
  }

  // ----- reference definition: the earliest acceptable variant of largest area -----

  /** Index `i` holds an acceptable variant of maximal area, and no earlier acceptable variant ties it. */
  predicate IsBestAt(s: seq<Variant>, i: int)
  {
    0 <= i < |s| && Acceptable(s[i])
    && (forall j :: 0 <= j < |s| && Acceptable(s[j]) ==> Area(s[j]) <= Area(s[i]))
    && (forall j :: 0 <= j < i && Acceptable(s[j]) ==> Area(s[j]) < Area(s[i]))
  }

  /** A direct, sort-free definition of the variant to pick. */
  function Best(s: seq<Variant>): Option<Variant>
  {
    if s == [] then None
    else
      var rest := Best(s[1..]);
      if Acceptable(s[0]) && (rest.None? || Area(s[0]) >= Area(rest.value)) then Some(s[0]) else rest
  }

  /** `Best` is empty exactly when no variant is acceptable. */
  lemma {:induction false} BestNoneIff(s: seq<Variant>)
    ensures Best(s).None? <==> forall i :: 0 <= i < |s| ==> !Acceptable(s[i])
  {
    if s != [] {
      BestNoneIff(s[1..]);
      if Best(s).None? {
        forall i | 0 < i < |s| ensures !Acceptable(s[i]) {
          assert s[1..][i - 1] == s[i];
        }
      }
    }
  }

  /** An acceptable head at least as large as the tail's best is the best. */
  lemma HeadBeatsTail(s: seq<Variant>, k: int)
    requires s != [] && Acceptable(s[0]) && IsBestAt(s[1..], k) && Area(s[0]) >= Area(s[k + 1])
    ensures IsBestAt(s, 0)
  {
    forall j | 0 < j < |s| && Acceptable(s[j]) ensures Area(s[j]) <= Area(s[0]) {
      assert s[1..][j - 1] == s[j];
    }
  }

  /** An acceptable head with nothing acceptable behind it is the best. */
  lemma HeadAlone(s: seq<Variant>)
    requires s != [] && Acceptable(s[0]) && forall j :: 0 <= j < |s| - 1 ==> !Acceptable(s[1..][j])
    ensures IsBestAt(s, 0)
  {
    forall j | 0 < j < |s| ensures !Acceptable(s[j]) {
      assert s[1..][j - 1] == s[j];
    }
  }

  /** When the head does not win, the tail's best index, shifted by one, is the best. */
  lemma TailWins(s: seq<Variant>, k: int)
    requires s != [] && IsBestAt(s[1..], k) && !(Acceptable(s[0]) && Area(s[0]) >= Area(s[k + 1]))
    ensures IsBestAt(s, k + 1)
  {
    var rest := s[1..];
    assert rest[k] == s[k + 1];
    forall j | 0 <= j < |s| && Acceptable(s[j]) ensures Area(s[j]) <= Area(s[k + 1]) {
      if j > 0 { assert rest[j - 1] == s[j]; }
    }
    forall j | 0 <= j < k + 1 && Acceptable(s[j]) ensures Area(s[j]) < Area(s[k + 1]) {
      if j > 0 { assert rest[j - 1] == s[j]; }
    }
  }

  /** Locates the variant `Best` returns at a best index. */
  lemma {:induction false} BestLocated(s: seq<Variant>) returns (i: int)
    requires Best(s).Some?
    ensures IsBestAt(s, i) && s[i] == Best(s).value
  {
    var rest := s[1..];
    var b := Best(rest);
    if b.None? {
      assert Best(s) == Some(s[0]);
      BestNoneIff(rest);
      HeadAlone(s);
      i := 0;
    } else {
      var k := BestLocated(rest);
      if Acceptable(s[0]) && Area(s[0]) >= Area(b.value) {
        assert Best(s) == Some(s[0]);
        HeadBeatsTail(s, k);
        i := 0;
      } else {
        assert Best(s) == b && s[k + 1] == b.value;
        TailWins(s, k);
        i := k + 1;
      }
    }
  }

  /** Whenever some variant is acceptable, `Best` returns one sitting at a best index. */
  lemma BestIsEarliestLargest(s: seq<Variant>)
    ensures Best(s).None? <==> forall i :: 0 <= i < |s| ==> !Acceptable(s[i])
    ensures Best(s).Some? ==> exists i :: IsBestAt(s, i) && s[i] == Best(s).value
  {
    BestNoneIff(s);
    if Best(s).Some? {
      var i := BestLocated(s);
    }
  }

  /** A best index past the head stays a best index of the tail. */
  lemma BestAtTail(s: seq<Variant>, i: int)
    requires IsBestAt(s, i) && i > 0
    ensures IsBestAt(s[1..], i - 1)
  {
    var rest := s[1..];
    forall j | 0 <= j < |rest| && Acceptable(rest[j]) ensures Area(rest[j]) <= Area(rest[i - 1]) {
      assert s[j + 1] == rest[j];
    }
    forall j | 0 <= j < i - 1 && Acceptable(rest[j]) ensures Area(rest[j]) < Area(rest[i - 1]) {
      assert s[j + 1] == rest[j];
    }
  }

  /** The best index is unique: whichever index is best, `Best` picks that variant. */
  lemma {:induction false} BestAtDetermines(s: seq<Variant>, i: int)
    requires IsBestAt(s, i)
    ensures Best(s) == Some(s[i])
  {
    var rest := s[1..];
    if i == 0 {
      if Best(rest).Some? {
        var k := BestLocated(rest);
        assert s[k + 1] == rest[k];
      }
    } else {
      BestAtTail(s, i);
      BestAtDetermines(rest, i - 1);
      assert Best(rest) == Some(s[i]);
    }
  }

  /** Dropping variants without a string URL does not change the best one. */
  lemma {:induction false} BestIgnoresMissingUrls(s: seq<Variant>)
    ensures Best(WithUrl(s)) == Best(s)
  {
    if s != [] {
      BestIgnoresMissingUrls(s[1..]);
      if s[0].url.Some? {
        assert WithUrl(s)[1..] == WithUrl(s[1..]);
      }
    }
  }

  /** Inserting into a sorted list: the first acceptable element is `v` exactly when `v` beats the old one. */
  lemma {:induction false} FirstAcceptableAfterInsert(v: Variant, t: seq<Variant>)
    requires Descending(t)
    ensures var old_ := FirstAcceptable(t);
      FirstAcceptable(Insert(v, t))
      == if Acceptable(v) && (old_.None? || Area(v) >= Area(old_.value)) then Some(v) else old_
  {
    if t == [] || Area(v) >= Area(t[0]) {
      var r := [v] + t;
      assert r[1..] == t;
      if FirstAcceptable(t).Some? {
        var w := FirstAcceptable(t).value;
        var k :| 0 <= k < |t| && t[k] == w;
        assert Area(t[0]) >= Area(t[k]);
      }
    } else {
      var r := [t[0]] + Insert(v, t[1..]);
      assert r[1..] == Insert(v, t[1..]);
      FirstAcceptableAfterInsert(v, t[1..]);
      if !Acceptable(t[0]) {
        assert FirstAcceptable(t) == FirstAcceptable(t[1..]);
      }
    }
  }

  /** The first acceptable variant after the stable sort is the reference choice. */
  lemma {:induction false} SortedSearchFindsBest(s: seq<Variant>)
    ensures FirstAcceptable(SortByArea(s)) == Best(s)
  {
    if s != [] {
      SortedSearchFindsBest(s[1..]);
      FirstAcceptableAfterInsert(s[0], SortByArea(s[1..]));
    }
  }

  /**
   * The selector returns nothing exactly when no variant is acceptable; otherwise it returns
   * the variant of largest area, the earliest one among equal areas.
   */
  lemma SelectPicksEarliestLargest(pin: PinValue)
    requires pin.Object? && pin.pin.images.Some?
    ensures var vs := pin.pin.images.value;
      SelectDownloadableImage(pin).None? <==> forall i :: 0 <= i < |vs| ==> !Acceptable(vs[i])
    ensures var vs := pin.pin.images.value;
      forall i :: IsBestAt(vs, i) ==> SelectDownloadableImage(pin) == Some(SelectionOf(vs[i]))
  {
    var vs := pin.pin.images.value;
    SortedSearchFindsBest(WithUrl(vs));
    BestIgnoresMissingUrls(vs);
    BestIsEarliestLargest(vs);
    forall i | IsBestAt(vs, i) ensures SelectDownloadableImage(pin) == Some(SelectionOf(vs[i])) {
      BestAtDetermines(vs, i);
    }
  }
}

=== FILE: pins.dfy ===
/**
 * The feed record ("pin") as the background script sees it in the board feed's JSON.
 * Only the properties the script reads are kept; a property whose type the script tests
 * (`typeof x === "string"`) is an `Option`, `None` standing for "absent or not a string".
 */
module Pins {
  import opened Wrappers

  /** One entry of `pin.images`: `url` is `None` when `img?.url` is not a string. */
  datatype Variant = Variant(url: Option<string>, width: int, height: int)

  /**
   * `id` is the text `${pin.id}` renders to; `isVideo` is the truthiness of `pin.is_video`;
   * `images` is `None` when `pin.images` is falsy and otherwise lists `Object.values(pin.images)`
   * in JavaScript property order (integer-like keys ascending, then the other keys in insertion
   * order).
   */
  datatype Pin = Pin(
    id: string,
    isVideo: bool,
    description: Option<string>,
    autoAltText: Option<string>,
    images: Option<seq<Variant>>)

  /**
   * A JSON value in a pin's place: `null`, another non-object value
   * (a number, a string, a boolean), or an object.
   */
  datatype PinValue = Absent | Primitive | Object(pin: Pin)
}

=== FILE: pipeline.dfy ===
/**
 * `downloadBoardImages` as a specification: resolve the board, collect the records of every
 * feed page, then download them one by one, ending in `"complete"`, `"canceled"` or `"error"`.
 * The run starts from the record a `START_BOARD_DOWNLOAD` message installs, and a cancel
 * message may arrive at any suspension (see `SessionState.Suspend`).
 */
module Pipeline {
  import opened Wrappers
  import opened BoardUrl
  import opened Feed
  import opened SessionState

  /** `resource_response.data.id` and `.name` of the board lookup response. */
  datatype BoardInfo = BoardInfo(id: Option<string>, name: Option<string>)

  const BoardNotFound := "Board ID not found"
  const DefaultBoardName := "Pinterest Board"
  const UnknownError := "Unknown error"

  /**
   * What one run sees of the outside world besides the feed: the board lookup response, the
   * downloads the browser rejects (by their position in the run, with the rejection message),
   * and the suspension during which the cancel message arrives, if any. The feed responses
   * enter the run as their digests (`Feed.Digests`), in request order.
   */
  datatype Env = Env(board: BoardInfo, failures: map<nat, string>, cancelAt: Option<nat>)

  /** The argument of `chrome.downloads.download`. */
  datatype DownloadRequest = DownloadRequest(url: string, filename: string, conflictAction: string)

  function RequestFor(boardName: string, rec: ImageRecord): DownloadRequest
  {
    DownloadRequest(rec.url, boardName + "/" + rec.filename + ".jpg", "uniquify")
  }

  /**
   * Where a download lands: in a folder named after the board, as `<filename>.jpg`. When neither
   * the board name nor the record's filename holds a `/`, the folder separator is the only one.
   */
  lemma RequestLayout(boardName: string, rec: ImageRecord)
    ensures var r := RequestFor(boardName, rec);
      r.url == rec.url && r.conflictAction == "uniquify"
      && |r.filename| == |boardName| + |rec.filename| + 5
      && r.filename[..|boardName|] == boardName && r.filename[|boardName|] == '/'
      && r.filename[|boardName| + 1..|r.filename| - 4] == rec.filename
      && r.filename[|r.filename| - 4..] == ".jpg"
    ensures var path := RequestFor(boardName, rec).filename;
      '/' !in boardName && '/' !in rec.filename ==>
        forall i :: 0 <= i < |path| && path[i] == '/' ==> i == |boardName|
  {
    var path := RequestFor(boardName, rec).filename;
    var n := |boardName|;
    assert path[..n] == boardName;
    assert path[n + 1..|path| - 4] == rec.filename;
  }

  /** The requests for `recs`, in order. */
  function Requests(boardName: string, recs: seq<ImageRecord>): (r: seq<DownloadRequest>)
    ensures |r| == |recs|
    ensures forall k :: 0 <= k < |recs| ==> r[k] == RequestFor(boardName, recs[k])
  {
    seq(|recs|, k requires 0 <= k < |recs| => RequestFor(boardName, recs[k]))
  }

  /** `err.message || "Unknown error"`. */
  function ErrorText(message: string): (r: string)
    ensures r != []
    ensures message != [] ==> r == message
  {
    if message == [] then UnknownError else message
  }

  /** `name || "Pinterest Board"`. */
  function BoardName(info: BoardInfo): (r: string)
    ensures r != []
    ensures info.name.Some? && info.name.value != [] ==> r == info.name.value
    ensures info.name.None? || info.name.value == [] ==> r == DefaultBoardName
  {
    if info.name.Some? && info.name.value != [] then info.name.value else DefaultBoardName
  }

  /** The `catch` block: status `"error"` and the message; the flag and the counters are kept. */
  function Fail(s: Snapshot, message: string): (r: Snapshot)
    ensures r.status == Error && r.error == Some(ErrorText(message))
    ensures r.canceled == s.canceled && r.completed == s.completed && r.total == s.total
  {
    s.(status := Error, error := Some(ErrorText(message)))
  }

  /** The session at the end of a run, the downloads it started, and the next suspension index. */
  datatype RunOutcome = RunOutcome(session: Snapshot, downloads: seq<DownloadRequest>, tick: nat)

  /**
   * The download loop from the `k`-th record on. Each download and the pause after it form one
   * suspension: a cancel landing in either has the same effect before the next check.
   */
  function DownloadRun(images: seq<ImageRecord>, k: nat, boardName: string, s: Snapshot,
                       failures: map<nat, string>, cancelAt: Option<nat>, tick: nat): (r: RunOutcome)
    requires k <= |images|
    ensures r.tick == tick + |r.downloads| && k + |r.downloads| <= |images|
    decreases |images| - k
  {
    if k == |images| then RunOutcome(s.(status := Complete), [], tick)
    else if s.canceled then RunOutcome(s.(status := Canceled), [], tick)
    else
      var req := RequestFor(boardName, images[k]);
      var s1 := Suspend(s, cancelAt, tick);
      if k in failures then RunOutcome(Fail(s1, failures[k]), [req], tick + 1)
      else
        var rest := DownloadRun(images, k + 1, boardName, s1.(completed := s1.completed + 1), failures, cancelAt, tick + 1);
        RunOutcome(rest.session, [req] + rest.downloads, rest.tick)
  }

  /** The lookup response names a board: its id is present and not empty. */
  predicate Found(info: BoardInfo)
  {
    info.id.Some? && info.id.value != []
  }

  /** `downloadBoardImages(boardUrl)` from the session `s`, starting at suspension `tick`. */
  function BoardRun(url: string, env: Env, feed: seq<PageResult>, s: Snapshot, tick: nat): (r: RunOutcome)
    requires Ends(feed)
  {
    match ParseBoardUrl(url)
    case Err(e) => RunOutcome(Fail(s, e), [], tick)
    case Ok(_) =>
      var s1 := Suspend(s, env.cancelAt, tick);
      if !Found(env.board) then RunOutcome(Fail(s1, BoardNotFound), [], tick + 1)
      else
        var fetched := FetchRun(feed, 0, s1, env.cancelAt, tick + 1);
        match fetched.images
        case Err(e) => RunOutcome(Fail(fetched.session, e), [], fetched.tick)
        case Ok(images) =>
          DownloadRun(images, 0, BoardName(env.board), fetched.session.(completed := 0, total := |images|),
                      env.failures, env.cancelAt, fetched.tick)
  }

  // ----- the download loop -----

  /** The session the loop starts from, at record `k`: counters in step, no error yet. */
  predicate LoopReady(images: seq<ImageRecord>, k: nat, s: Snapshot)
  {
    k <= |images| && s.completed == k && s.total == |images|
    && s.status == (if s.canceled then Canceled else Downloading) && s.error.None?
  }

  /** The terminal states keep their promises: counts agree with the status, errors carry a message. */
  predicate Settled(s: Snapshot)
  {
    s.completed <= s.total
    && s.status != Downloading
    && (s.status == Complete ==> s.completed == s.total)
    && (s.status == Canceled ==> s.canceled && s.completed < s.total)
    && (s.status == Error <==> s.error.Some?)
    && (s.error.Some? ==> s.error.value != [])
  }

  /** The requests of a record list with one more record in front. */
  lemma RequestsPrepend(boardName: string, rec: ImageRecord, recs: seq<ImageRecord>)
    ensures Requests(boardName, [rec] + recs) == [RequestFor(boardName, rec)] + Requests(boardName, recs)
  {
    var lhs := Requests(boardName, [rec] + recs);
    var rhs := [RequestFor(boardName, rec)] + Requests(boardName, recs);
    forall m | 0 <= m < |lhs|
      ensures lhs[m] == rhs[m]
    {
      if m > 0 {
        assert ([rec] + recs)[m] == recs[m - 1];
      }
    }
  }

  /** A loop turn that neither sees a cancel nor has its download rejected: one request, then the rest. */
  lemma DownloadRunContinues(images: seq<ImageRecord>, k: nat, boardName: string, s: Snapshot,
                             failures: map<nat, string>, cancelAt: Option<nat>, tick: nat)
    requires k < |images| && !s.canceled && k !in failures
    ensures var s1 := Suspend(s, cancelAt, tick);
      var rest := DownloadRun(images, k + 1, boardName, s1.(completed := s1.completed + 1), failures, cancelAt, tick + 1);
      DownloadRun(images, k, boardName, s, failures, cancelAt, tick)
        == RunOutcome(rest.session, [RequestFor(boardName, images[k])] + rest.downloads, rest.tick)
  {
  }

  /** The downloads the loop starts are the requests of the next records, in order, one per suspension. */
  lemma {:induction false} DownloadRunRequests(images: seq<ImageRecord>, k: nat, boardName: string, s: Snapshot,
                                               failures: map<nat, string>, cancelAt: Option<nat>, tick: nat)
    requires k <= |images|
    ensures var r := DownloadRun(images, k, boardName, s, failures, cancelAt, tick);
      k + |r.downloads| <= |images|
      && forall m :: 0 <= m < |r.downloads| ==> r.downloads[m] == RequestFor(boardName, images[k + m])
    decreases |images| - k
  {
    if k < |images| && !s.canceled && k !in failures {
      var s1 := Suspend(s, cancelAt, tick);
      var s2 := s1.(completed := s1.completed + 1);
      DownloadRunRequests(images, k + 1, boardName, s2, failures, cancelAt, tick + 1);
      DownloadRunContinues(images, k, boardName, s, failures, cancelAt, tick);
      var rest := DownloadRun(images, k + 1, boardName, s2, failures, cancelAt, tick + 1).downloads;
      RequestsFrom(images, k, boardName, rest);
    }
  }

  /** One request in front of the requests of the records from `k + 1` gives those from `k`. */
  lemma RequestsFrom(images: seq<ImageRecord>, k: nat, boardName: string, rest: seq<DownloadRequest>)
    requires k + 1 + |rest| <= |images|
    requires forall m :: 0 <= m < |rest| ==> rest[m] == RequestFor(boardName, images[k + 1 + m])
    ensures var all := [RequestFor(boardName, images[k])] + rest;
      forall m :: 0 <= m < |all| ==> all[m] == RequestFor(boardName, images[k + m])
  {
    var all := [RequestFor(boardName, images[k])] + rest;
    forall m | 0 < m < |all|
      ensures all[m] == RequestFor(boardName, images[k + m])
    {
      assert all[m] == rest[m - 1];
    }
  }

  /** The loop ends settled, with one download started per completed record, plus a rejected one. */
  lemma {:induction false} DownloadRunSettles(images: seq<ImageRecord>, k: nat, boardName: string, s: Snapshot,
                                              failures: map<nat, string>, cancelAt: Option<nat>, tick: nat)
    requires LoopReady(images, k, s)
    ensures var r := DownloadRun(images, k, boardName, s, failures, cancelAt, tick);
      Settled(r.session) && r.session.total == |images|
      && |r.downloads| - 1 <= r.session.completed - k <= |r.downloads|
      && r.session.completed == k + |r.downloads| - (if r.session.status == Error then 1 else 0)
    decreases |images| - k
  {
    var r := DownloadRun(images, k, boardName, s, failures, cancelAt, tick);
    if k < |images| && !s.canceled && k !in failures {
      var s1 := Suspend(s, cancelAt, tick);
      var s2 := s1.(completed := s1.completed + 1);
      var rest := DownloadRun(images, k + 1, boardName, s2, failures, cancelAt, tick + 1);
      assert r.session == rest.session && |r.downloads| == 1 + |rest.downloads|;
      DownloadRunSettles(images, k + 1, boardName, s2, failures, cancelAt, tick + 1);
    } else if k < |images| && s.canceled {
      assert k < s.total;
    }
  }

  /** The canceled flag at the end of the loop says whether a cancel arrived, now or before. */
  lemma {:induction false} DownloadRunCancelFlag(images: seq<ImageRecord>, k: nat, boardName: string, s: Snapshot,
                                                 failures: map<nat, string>, cancelAt: Option<nat>, tick: nat)
    requires k <= |images|
    ensures var r := DownloadRun(images, k, boardName, s, failures, cancelAt, tick);
      tick <= r.tick && (r.session.canceled <==> s.canceled || CancelIn(cancelAt, tick, r.tick))
    decreases |images| - k
  {
    if k < |images| && !s.canceled && k !in failures {
      var s1 := Suspend(s, cancelAt, tick);
      DownloadRunCancelFlag(images, k + 1, boardName, s1.(completed := s1.completed + 1), failures, cancelAt, tick + 1);
    }
  }

  /** A cancel the loop sees stops it before the next download, with status `"canceled"`. */
  lemma SeenCancelStops(images: seq<ImageRecord>, k: nat, boardName: string, s: Snapshot,
                        failures: map<nat, string>, cancelAt: Option<nat>, tick: nat)
    requires k < |images| && s.canceled
    ensures DownloadRun(images, k, boardName, s, failures, cancelAt, tick)
      == RunOutcome(s.(status := Canceled), [], tick)
  {
  }

  /** Once the cancel message lands during a download, that download is the last one. */
  lemma {:induction false} CancelEndsDownloads(images: seq<ImageRecord>, k: nat, boardName: string, s: Snapshot,
                                               failures: map<nat, string>, cancelAt: Option<nat>, tick: nat)
    requires k <= |images|
    ensures var r := DownloadRun(images, k, boardName, s, failures, cancelAt, tick);
      CancelIn(cancelAt, tick, r.tick) ==> r.tick == cancelAt.value + 1
    decreases |images| - k
  {
    if k < |images| && !s.canceled && k !in failures && cancelAt != Some(tick) {
      var s1 := Suspend(s, cancelAt, tick);
      CancelEndsDownloads(images, k + 1, boardName, s1.(completed := s1.completed + 1), failures, cancelAt, tick + 1);
    }
  }

  /**
   * How the loop ends: `"error"` with the browser's message exactly when its last download was
   * rejected (no earlier one was), `"complete"` when every record was downloaded, and
   * `"canceled"` when it stopped before the end without a rejection.
   */
  lemma DownloadRunEnds(images: seq<ImageRecord>, k: nat, boardName: string, s: Snapshot,
                        failures: map<nat, string>, cancelAt: Option<nat>, tick: nat)
    requires LoopReady(images, k, s)
    ensures var r := DownloadRun(images, k, boardName, s, failures, cancelAt, tick);
      var n := |r.downloads|;
      (forall j :: k <= j < k + n - 1 ==> j !in failures)
      && (r.session.status == Error <==> n > 0 && k + n - 1 in failures)
      && (r.session.status == Error ==> r.session.error == Some(ErrorText(failures[k + n - 1])))
      && (r.session.status == Complete <==> r.session.status != Error && k + n == |images|)
      && (r.session.status == Canceled <==> r.session.status != Error && k + n < |images|)
  {
    DownloadRunRejection(images, k, boardName, s, failures, cancelAt, tick);
    DownloadRunStops(images, k, boardName, s, failures, cancelAt, tick);
  }

  /** Only the last download of the loop can have been rejected, and a rejection is the error. */
  lemma {:induction false} DownloadRunRejection(images: seq<ImageRecord>, k: nat, boardName: string, s: Snapshot,
                                                failures: map<nat, string>, cancelAt: Option<nat>, tick: nat)
    requires LoopReady(images, k, s)
    ensures var r := DownloadRun(images, k, boardName, s, failures, cancelAt, tick);
      var n := |r.downloads|;
      (forall j :: k <= j < k + n - 1 ==> j !in failures)
      && (r.session.status == Error <==> n > 0 && k + n - 1 in failures)
      && (r.session.status == Error ==> r.session.error == Some(ErrorText(failures[k + n - 1])))
    decreases |images| - k
  {
    var r := DownloadRun(images, k, boardName, s, failures, cancelAt, tick);
    if k < |images| && !s.canceled && k !in failures {
      var s1 := Suspend(s, cancelAt, tick);
      var s2 := s1.(completed := s1.completed + 1);
      var rest := DownloadRun(images, k + 1, boardName, s2, failures, cancelAt, tick + 1);
      assert r.session == rest.session && |r.downloads| == 1 + |rest.downloads|;
      DownloadRunRejection(images, k + 1, boardName, s2, failures, cancelAt, tick + 1);
    }
  }

  /** Without a rejection, the loop completes when it reached the end and is canceled otherwise. */
  lemma {:induction false} DownloadRunStops(images: seq<ImageRecord>, k: nat, boardName: string, s: Snapshot,
                                            failures: map<nat, string>, cancelAt: Option<nat>, tick: nat)
    requires LoopReady(images, k, s)
    ensures var r := DownloadRun(images, k, boardName, s, failures, cancelAt, tick);
      var n := |r.downloads|;
      (r.session.status == Complete <==> r.session.status != Error && k + n == |images|)
      && (r.session.status == Canceled <==> r.session.status != Error && k + n < |images|)
    decreases |images| - k
  {
    var r := DownloadRun(images, k, boardName, s, failures, cancelAt, tick);
    if k < |images| && !s.canceled && k !in failures {
      var s1 := Suspend(s, cancelAt, tick);
      var s2 := s1.(completed := s1.completed + 1);
      var rest := DownloadRun(images, k + 1, boardName, s2, failures, cancelAt, tick + 1);
      assert r.session == rest.session && |r.downloads| == 1 + |rest.downloads|;
      DownloadRunStops(images, k + 1, boardName, s2, failures, cancelAt, tick + 1);
    }
  }

  /** With no cancel and no rejection, the loop downloads every remaining record and completes. */
  lemma {:induction false} DownloadRunUndisturbedSession(images: seq<ImageRecord>, k: nat, boardName: string,
                                                         s: Snapshot, tick: nat)
    requires k <= |images| && !s.canceled
    ensures DownloadRun(images, k, boardName, s, map[], None, tick).session
      == s.(status := Complete, completed := s.completed + (|images| - k))
    decreases |images| - k
  {
    if k < |images| {
      DownloadRunUndisturbedSession(images, k + 1, boardName, s.(completed := s.completed + 1), tick + 1);
    }
  }

  lemma {:induction false} DownloadRunUndisturbedRequests(images: seq<ImageRecord>, k: nat, boardName: string,
                                                          s: Snapshot, tick: nat)
    requires k <= |images| && !s.canceled
    ensures DownloadRun(images, k, boardName, s, map[], None, tick).downloads == Requests(boardName, images[k..])
    decreases |images| - k
  {
    if k < |images| {
      DownloadRunUndisturbedRequests(images, k + 1, boardName, s.(completed := s.completed + 1), tick + 1);
      assert images[k..] == [images[k]] + images[k + 1..];
      RequestsPrepend(boardName, images[k], images[k + 1..]);
    }
  }

  /** With no cancel and no rejection, every record is downloaded, in order, and the run completes. */
  lemma DownloadRunUndisturbed(images: seq<ImageRecord>, k: nat, boardName: string, s: Snapshot, tick: nat)
    requires k <= |images| && !s.canceled
    ensures var r := DownloadRun(images, k, boardName, s, map[], None, tick);
      r.session == s.(status := Complete, completed := s.completed + (|images| - k))
      && r.downloads == Requests(boardName, images[k..])
  {
    DownloadRunUndisturbedSession(images, k, boardName, s, tick);
    DownloadRunUndisturbedRequests(images, k, boardName, s, tick);
  }

  /**
   * A cancel that lands while the last record downloads is not seen by the loop: the run
   * still ends `"complete"`, although the session was canceled.
   */
  lemma CancelDuringLastDownloadCompletes(images: seq<ImageRecord>, boardName: string, s: Snapshot,
                                          failures: map<nat, string>, tick: nat)
    requires |images| > 0 && LoopReady(images, |images| - 1, s) && !s.canceled && |images| - 1 !in failures
    ensures var r := DownloadRun(images, |images| - 1, boardName, s, failures, Some(tick), tick);
      r.session.canceled && r.session.status == Complete && r.session.completed == |images|
  {
  }

  // ----- the whole run -----

  /** A run from a fresh session always ends settled, its counters in step with its downloads. */
  lemma RunSettles(url: string, env: Env, feed: seq<PageResult>, tick: nat)
    requires Ends(feed)
    ensures var r := BoardRun(url, env, feed, Started, tick);
      Settled(r.session) && r.session.completed <= |r.downloads| <= r.session.completed + 1
      && r.session.completed == |r.downloads| - (if r.session.status == Error && r.downloads != [] then 1 else 0)
  {
    if ParseBoardUrl(url).Ok? && Found(env.board) {
      var s1 := Suspend(Started, env.cancelAt, tick);
      var fetched := FetchRun(feed, 0, s1, env.cancelAt, tick + 1);
      if fetched.images.Ok? {
        var images := fetched.images.value;
        DownloadRunSettles(images, 0, BoardName(env.board), fetched.session.(completed := 0, total := |images|),
                           env.failures, env.cancelAt, fetched.tick);
      }
    }
  }

  /** The final canceled flag is set exactly when the cancel message arrived during the run. */
  lemma RunCancelFlag(url: string, env: Env, feed: seq<PageResult>, tick: nat)
    requires Ends(feed)
    ensures var r := BoardRun(url, env, feed, Started, tick);
      tick <= r.tick && (r.session.canceled <==> CancelIn(env.cancelAt, tick, r.tick))
  {
    if ParseBoardUrl(url).Ok? && Found(env.board) {
      var s1 := Suspend(Started, env.cancelAt, tick);
      var fetched := FetchRun(feed, 0, s1, env.cancelAt, tick + 1);
      if fetched.images.Ok? {
        RunCancelFlagDownloads(url, env, feed, tick, fetched);
      }
    }
  }

  /** `RunCancelFlag` once the feed has loaded: the flag comes from the download loop. */
  lemma RunCancelFlagDownloads(url: string, env: Env, feed: seq<PageResult>, tick: nat, fetched: FeedOutcome)
    requires Ends(feed) && ParseBoardUrl(url).Ok? && Found(env.board)
    requires fetched == FetchRun(feed, 0, Suspend(Started, env.cancelAt, tick), env.cancelAt, tick + 1)
    requires fetched.images.Ok?
    ensures var r := BoardRun(url, env, feed, Started, tick);
      tick <= r.tick && (r.session.canceled <==> CancelIn(env.cancelAt, tick, r.tick))
  {
    var images := fetched.images.value;
    var s2 := fetched.session.(completed := 0, total := |images|);
    DownloadRunCancelFlag(images, 0, BoardName(env.board), s2, env.failures, env.cancelAt, fetched.tick);
  }

  /**
   * Without a cancel or a rejected download, a resolvable board whose feed loads ends
   * `"complete"` with every collected record downloaded in feed order.
   */
  lemma RunUndisturbedCompletes(url: string, env: Env, feed: seq<PageResult>, tick: nat)
    requires Ends(feed) && ParseBoardUrl(url).Ok? && Found(env.board)
    requires env.cancelAt.None? && env.failures == map[]
    requires FetchRun(feed, 0, Started, None, tick + 1).images.Ok?
    ensures var images := FetchRun(feed, 0, Started, None, tick + 1).images.value;
      var r := BoardRun(url, env, feed, Started, tick);
      r.session == Started.(status := Complete, completed := |images|, total := |images|)
      && r.downloads == Requests(BoardName(env.board), images)
  {
    var fetched := FetchRun(feed, 0, Started, None, tick + 1);
    var images := fetched.images.value;
    DownloadRunUndisturbed(images, 0, BoardName(env.board), Started.(total := |images|), fetched.tick);
    assert images[0..] == images;
  }

  /**
   * A cancel that lands during the board lookup stops the feed before its first request, and
   * the run then ends `"complete"` with nothing to download.
   */
  lemma CancelDuringLookupCompletes(url: string, env: Env, feed: seq<PageResult>, tick: nat)
    requires Ends(feed) && ParseBoardUrl(url).Ok? && Found(env.board)
    requires env.cancelAt == Some(tick)
    ensures var r := BoardRun(url, env, feed, Started, tick);
      r.session.canceled && r.session.status == Complete && r.session.total == 0 && r.downloads == []
  {
    var s1 := Suspend(Started, env.cancelAt, tick);
    assert s1.canceled;
    assert FetchRun(feed, 0, s1, env.cancelAt, tick + 1).images == Ok([]);
  }

  // ----- the error paths of the whole run -----

  /** An invalid board URL ends the run at once in `"error"`, before any request. */
  lemma RunRejectsInvalidUrl(url: string, env: Env, feed: seq<PageResult>, tick: nat)
    requires Ends(feed) && ParseBoardUrl(url).Err?
    ensures BoardRun(url, env, feed, Started, tick)
      == RunOutcome(Started.(status := Error, error := Some(InvalidUrl)), [], tick)
  {
  }

  /** A lookup response without a board id ends the run in `"error"` after that one request. */
  lemma RunBoardNotFound(url: string, env: Env, feed: seq<PageResult>, tick: nat)
    requires Ends(feed) && ParseBoardUrl(url).Ok? && !Found(env.board)
    ensures var r := BoardRun(url, env, feed, Started, tick);
      r.session.status == Error && r.session.error == Some(BoardNotFound)
      && r.session.total == 0 && r.downloads == [] && r.tick == tick + 1
  {
  }

  /**
   * A feed run that throws ends the run in `"error"` with its message and nothing downloaded;
   * `Feed.FeedFailsOnBadPage` says when the feed throws.
   */
  lemma RunFeedFails(url: string, env: Env, feed: seq<PageResult>, tick: nat)
    requires Ends(feed) && ParseBoardUrl(url).Ok? && Found(env.board)
    ensures var fetched := FetchRun(feed, 0, Suspend(Started, env.cancelAt, tick), env.cancelAt, tick + 1);
      var r := BoardRun(url, env, feed, Started, tick);
      fetched.images.Err? ==>
        r.session.status == Error && r.session.error == Some(ErrorText(fetched.images.error))
        && r.session.total == 0 && r.downloads == [] && r.tick == fetched.tick
  {
  }
}

=== FILE: session_state.dfy ===
/**
 * The download session record (`{ canceled, status, completed, total, error }`) as a value, and
 * the effect a `CANCEL_BOARD_DOWNLOAD` message has on it when it arrives while the pipeline
 * is suspended.
 */
module SessionState {
  import opened Wrappers

  /** `"downloading"`, `"canceled"`, `"complete"`, `"error"`. */
  datatype Status = Downloading | Canceled | Complete | Error

  datatype Snapshot = Snapshot(canceled: bool, status: Status, completed: nat, total: nat, error: Option<string>)

  /** The record a `START_BOARD_DOWNLOAD` message installs. */
  const Started := Snapshot(false, Downloading, 0, 0, None)

  /** The cancel handler: raises the flag and sets the status at once; the counters are untouched. */
  function Cancel(s: Snapshot): (r: Snapshot)
    ensures r.canceled && r.status == Canceled
    ensures r.completed == s.completed && r.total == s.total && r.error == s.error
  {
    s.(canceled := true, status := Canceled)
  }

  /**
   * The pipeline's `tick`-th suspension (an `await`): the cancel message is delivered during it
   * exactly when `cancelAt == Some(tick)`.
   */
  function Suspend(s: Snapshot, cancelAt: Option<nat>, tick: nat): (r: Snapshot)
    ensures r.canceled <==> s.canceled || cancelAt == Some(tick)
    ensures r.status == if cancelAt == Some(tick) then Canceled else s.status
    ensures r.completed == s.completed && r.total == s.total && r.error == s.error
  {
    if cancelAt == Some(tick) then Cancel(s) else s
  }

  /** The cancel message is delivered during one of the suspensions `from .. until - 1`. */
  predicate CancelIn(cancelAt: Option<nat>, from: nat, until: nat)
  {
    cancelAt.Some? && from <= cancelAt.value < until
  }
}

=== FILE: text.dfy ===
/**
 * The few JavaScript string built-ins the extension relies on: the `\s` character
 * class (which is also the set `String.prototype.trim` removes), ASCII lower-casing,
 * `endsWith`, and the decimal rendering of an integer in a template literal.
 */
module Text {

  /** JavaScript's `\s`: WhiteSpace and LineTerminator code points of ECMA-262. */
  predicate IsWhitespace(c: char)
  {
    c == '\t' || c == '\n' || c == '\U{B}' || c == '\U{C}' || c == '\r' || c == ' '
    || c == '\U{A0}' || c == '\U{1680}' || ('\U{2000}' <= c <= '\U{200A}')
    || c == '\U{2028}' || c == '\U{2029}' || c == '\U{202F}' || c == '\U{205F}'
    || c == '\U{3000}' || c == '\U{FEFF}'
  }

  /** `s.trim()` is truthy: `s` holds at least one non-whitespace character. */
  predicate HasContent(s: string)
  {
    exists i :: 0 <= i < |s| && !IsWhitespace(s[i])
  }

  function ToLowerChar(c: char): (r: char)
    ensures 'A' <= c <= 'Z' ==> r as int == c as int + 32
    ensures !('A' <= c <= 'Z') ==> r == c
  {
    if 'A' <= c <= 'Z' then (c as int + 32) as char else c
  }

  /** `toLowerCase`, restricted to the ASCII letters. */
  function ToLower(s: string): (r: string)
    ensures |r| == |s|
  {
    if s == [] then [] else [ToLowerChar(s[0])] + ToLower(s[1..])
  }

  /** Lower-casing works character by character. */
  lemma {:induction false} ToLowerEach(s: string)
    ensures forall i :: 0 <= i < |s| ==> ToLower(s)[i] == ToLowerChar(s[i])
  {
    if s != [] {
      ToLowerEach(s[1..]);
      assert forall i :: 0 < i < |s| ==> ToLower(s)[i] == ToLower(s[1..])[i - 1];
    }
  }

  predicate EndsWith(s: string, suffix: string)
  {
    |suffix| <= |s| && s[|s| - |suffix|..] == suffix
  }

  predicate AllDigits(s: string)
  {
    forall i :: 0 <= i < |s| ==> '0' <= s[i] <= '9'
  }

  /** The number a string of decimal digits denotes, most significant digit first. */
  function DigitsValue(s: string): nat
    requires AllDigits(s)
    decreases |s|
  {
    if s == [] then 0 else DigitsValue(s[..|s| - 1]) * 10 + (s[|s| - 1] as int - '0' as int)
  }

  function DigitChar(d: nat): (c: char)
    requires d < 10
    ensures '0' <= c <= '9' && c as int - '0' as int == d
  {
    ('0' as int + d) as char
  }

  /** The decimal digits of `n`, most significant first, without leading zeros. */
  function NatToString(n: nat): (r: string)
    ensures |r| >= 1 && AllDigits(r)
    ensures DigitsValue(r) == n
    ensures |r| > 1 ==> r[0] != '0'
    decreases n
  {
    if n < 10 then [DigitChar(n)]
    else
      var init := NatToString(n / 10);
      var r := init + [DigitChar(n % 10)];
      assert r[..|r| - 1] == init;
      r
  }

  /** `${n}` for an integer `n`: a `-` for a negative `n`, then the digits of its magnitude. */
  function IntToString(n: int): (r: string)
    ensures |r| >= 1
    ensures n < 0 <==> r[0] == '-'
    ensures var digits := if n < 0 then r[1..] else r;
      |digits| >= 1 && AllDigits(digits) && (|digits| > 1 ==> digits[0] != '0')
      && DigitsValue(digits) == if n < 0 then -n else n
  {
    if n < 0 then
      var r := "-" + NatToString(-n);
      assert r[1..] == NatToString(-n);
      r
    else NatToString(n)
  }
}

=== FILE: wrappers.dfy ===
/** Option and Result, used for JavaScript's `null`/absent values and for thrown errors. */
module Wrappers {

  datatype Option<+T> = None | Some(value: T)

  /** `Err` carries the message of the `Error` the JavaScript code throws. */
  datatype Result<+T> = Ok(value: T) | Err(error: string)
}
